=== FILE: README.md ===
# lostcontrol core, modelled in Dafny

lostcontrol is a small snapshot-based version control tool. A working
directory is a *repository*. Its descriptor file `.lostcontrol.conf` holds
the repository name, the current branch, the branch names, the ignore lists
and the list of *staged* files. Each branch has a *ledger*: the file
`.lostcontrol/<branch>/<branch>.conf` holds the branch's ordered commit
history and the id of its current commit. A *commit* copies every staged file
into a snapshot directory `<branch>-commit-<id>`, and the new id is the number
of commits in the ledger plus one. Removing a commit deletes its snapshot
directory and its ledger entry. Restoring a commit copies its snapshot back
over the working directory. Both persisted files start with the version line
`0.0.5`, and loading either file rejects any other first line.

The model has these modules:

- `Base`: options, results with an error kind, and sequence facts.
- `Decimal`: how an id is printed in a directory name and read back.
- `Text`: line splitting the way `BufRead::lines` does it.
- `Paths`: the two `PathBuf` operations the core uses, `join` and `set_extension`.
- `Persist`: the version header shared by both files.
- `CommitRecord`: the commit record and its text rendering.
- `BranchLedger`: the ledger.
- `Repository`: the descriptor and the commit, remove and restore orchestration.
- `RepositoryProps`: properties that span several operations.

Every operation is a pure function. The filesystem and the other outside
inputs are parameters of those functions:

- Paths that exist are a `set<Path>`.
- The snapshot directories of the current branch are a set of directory names.
- Whether a copy succeeds is a predicate on the file.
- Reading a persisted file is a function that may fail.
- The YAML encoder and decoder are function parameters.
- The clock is a `now` string.
- `close` returns the list of filesystem changes it makes.

The source returns `Err(())` on every failure. The model's `Error` kinds
only name which branch of the source failed. Two panics of the source are
modelled as `Err(Aborted)`: an unreadable or undecodable descriptor in
`Repo::from_file`, and the listing of a missing snapshot directory in
`restore_commit`. The other panics are listed under "## Left out".

Several points of behaviour are stated as the code has them:

- `remove_commit` of the ledger never looks at the closed flag.
- `unstage_files` and `unstage_all` do not look at the closed flag either.
- A new id is `commit_count() + 1`, so ids can be reused. Take the history
  [1, 2] of branch "master" and remove commit 1. The next id is 2 again, and
  its directory `master-commit-2` still exists, so every later commit fails
  (`RepositoryProps.RemoveFirstOfTwo`, and in general
  `RepositoryProps.RemoveThenCommitCollides`).

## Model

| member | source | states |
|---|---|---|
| BranchLedger.New | src/lostcontrol/branch_config.rs:22-34 | A new ledger is open, modified and empty, and its current commit is 0. Its file is `<root>/<name>/<name>`, with the extension of its last path component set to "conf". |
| BranchLedger.NewPathPlain | src/lostcontrol/branch_config.rs:23-24 | For a plain branch name, a new ledger's file is `<root>/<name>/<name>.conf`. |
| BranchLedger.PlainLedgerPath | src/lostcontrol/branch_config.rs:23-24 | For a branch name without '.' or '/', under a root without a trailing '/', the ledger path is `<root>/<name>/<name>.conf`. |
| BranchLedger.NestedNamePath | src/lostcontrol/branch_config.rs:23-24 | For a branch name `<parent>/<base>` whose last component has no '.', only that last component gets ".conf". Dots in the directories are kept, and the file is `<root>/<parent>/<base>/<parent>/<base>.conf`. |
| Paths.SetPathExtensionBelow | src/lostcontrol/branch_config.rs:24 | Setting the extension of `<dir>/<name>` changes only the last component `<name>`. Everything up to the final '/' is kept. |
| BranchLedger.FromFile | src/lostcontrol/branch_config.rs:36-72 | Loading succeeds exactly when the file can be read, its first line is the version and the rest parses. An unreadable file gives the unreadable error and a wrong version line the unsupported-version error. A loaded ledger is open and unmodified, remembers its path, and holds the decoded body. |
| BranchLedger.PushCommit | src/lostcontrol/branch_config.rs:74-81 | On a closed ledger, pushing is a no-op. Otherwise the commit is appended after the unchanged history and becomes the current commit, and the ledger is marked modified. The tail invariant is kept. |
| BranchLedger.FindCommit | src/lostcontrol/branch_config.rs:88-102 | Finds the position of the first commit with the id, or none exactly when no commit has the id. |
| BranchLedger.RemoveCommit | src/lostcontrol/branch_config.rs:83-105 | Removal fails exactly when no commit has the id, and that includes the empty ledger. Otherwise exactly the first commit with the id is dropped, and the current id becomes the new tail's id, or 0. The ledger is marked modified. |
| BranchLedger.RemoveThenGet | src/lostcontrol/branch_config.rs:83-114 | After a removal from a history with unique ids, the id can no longer be found, the ids stay unique, and the remaining commits keep their order. |
| BranchLedger.GetCommit | src/lostcontrol/branch_config.rs:107-114 | Returns the first commit with the id, or none exactly when no commit has it. |
| BranchLedger.GetCommits | src/lostcontrol/branch_config.rs:116-118 | The copy is the whole history, oldest first. |
| BranchLedger.GetCommitsAgreesWithGetCommit | src/lostcontrol/branch_config.rs:107-118 | In a history without repeated ids, each listed commit is exactly what `get_commit` finds for its id, and whatever `get_commit` finds is in the list. |
| BranchLedger.CommitCount | src/lostcontrol/branch_config.rs:116-122 | The count is the length of the history that `get_commits` returns. |
| BranchLedger.Close | src/lostcontrol/branch_config.rs:124-140 | A closed or unmodified ledger writes nothing. Otherwise it writes once: the version line and the encoded body, to its own path. It then becomes closed, and its contents never change. |
| BranchLedger.CloseIdempotent | src/lostcontrol/branch_config.rs:124-127 | Closing twice writes at most once, and the second close changes nothing. |
| BranchLedger.ClosedLedgerPassesVersionCheck | src/lostcontrol/branch_config.rs:58-61 | Every ledger file that `close` writes passes the version check of `from_file`. |
| BranchLedger.ClosedLedgerReloads | src/lostcontrol/branch_config.rs:36-72 | If the YAML codec round-trips the body, a ledger written by `close` loads back as the same ledger, unmodified. |
| Persist.Serialize | src/lostcontrol/branch_config.rs:135-136 | The written file is the version line "0.0.5" and a newline, followed by the body unchanged. |
| Persist.ReadVersioned | src/lostcontrol/branch_config.rs:44-61 | The version check fails only with the unsupported-version error. By definition, when the first line is the version, the body is the remaining lines re-joined. |
| Persist.HeaderAcceptedIff | src/lostcontrol/branch_config.rs:44-61 | The version check accepts a content exactly when it is "0.0.5" alone or starts with "0.0.5\n" or "0.0.5\r\n". |
| Persist.SerializeRoundTrip | src/lostcontrol/branch_config.rs:48-56 | A written body that `lines()` leaves intact is read back exactly as it was written after the version line. |
| Text.JoinLinesOfLines | src/lostcontrol/branch_config.rs:48-56 | Splitting plain text into lines and re-joining them, each ended by a newline, gives the text back. |
| Text.LinesOfJoinLines | src/lostcontrol/branch_config.rs:48-56 | Joining single lines and splitting the result gives the lines back. |
| Decimal.ParseNatToString | src/lostcontrol/repo.rs:56-58 | The decimal rendering of an id parses back to the same id. |
| CommitRecord.NewCommit | src/lostcontrol/commit.rs:14-21 | A new record holds the given id, message and file list, and the clock reading as its creation time. |
| CommitRecord.Clone | src/lostcontrol/commit.rs:45-53 | A clone is equal to the original in every field. |
| CommitRecord.Render | src/lostcontrol/commit.rs:30-41 | The rendering starts with the four header lines: id, message, local creation time and "Modified Files:". |
| CommitRecord.RenderLines | src/lostcontrol/commit.rs:30-41 | When the message, the formatted time and every file name are single lines (no newline, no trailing carriage return), the rendering has exactly these lines: the id, message, time and "Modified Files:" header lines, then one indented line per file, in order. |
| CommitRecord.RenderedIdReadsBack | src/lostcontrol/commit.rs:32-33 | The first rendered line is "ID: " followed by the id in decimal, which parses back to the id. |
| Repository.New | src/lostcontrol/repo.rs:60-90 | Initialisation fails exactly when the descriptor file or the repository directory exists. Otherwise the descriptor is open and modified, has the single branch "master" and nothing staged, ignores exactly its own descriptor file and repository directory (each prefixed by "./"), and satisfies the staging invariant. |
| Repository.FromFile | src/lostcontrol/repo.rs:92-133 | Loading succeeds exactly when the descriptor exists, can be read, starts with the version line and decodes. A missing descriptor gives the not-found error, a wrong version line the unsupported-version error, and an unreadable or undecodable descriptor the abort that stands for the panic. A loaded descriptor passed the version check, is open and unmodified, carries the paths derived from the directory, and holds the decoded body. |
| Repository.FilterPaths | src/lostcontrol/repo.rs:37-54 | A path is among the collected files exactly when some argument yields it: a file yields itself, a directory yields its expansion, and anything else yields nothing. |
| Repository.Admit | src/lostcontrol/repo.rs:141-154 | The staged list is kept as a prefix. A file is staged afterwards exactly when it was already staged, or it was collected and is not ignored. The new files appear in order of their first occurrence, and no duplicate is introduced. |
| Repository.StageFiles | src/lostcontrol/repo.rs:135-156 | On a closed descriptor, staging is a no-op. Otherwise only the staged list and the modified flag change: the old list is kept as a prefix, a file is staged afterwards exactly when it was staged or was collected and is not ignored, each appended file was neither staged nor ignored, and appended files come in order of first collection. A duplicate-free list stays duplicate-free, and the staging invariant is preserved. |
| Repository.Retain | src/lostcontrol/repo.rs:160 | Keeps exactly the elements that are not dropped, every copy of each, as a subsequence, without creating duplicates. |
| Repository.UnstageFiles | src/lostcontrol/repo.rs:158-165 | Exactly the staged files that the arguments expand to are removed. Every copy of every other staged file stays, in its order. Nothing else changes except the modified flag. |
| Repository.UnstageAll | src/lostcontrol/repo.rs:167-170 | The staged list becomes empty, and the descriptor is marked modified. |
| Repository.SnapshotDir | src/lostcontrol/repo.rs:56-58 | A snapshot directory name starts with the branch name followed by "-commit-". |
| Repository.SnapshotDirInjective | src/lostcontrol/repo.rs:56-58 | Distinct ids of one branch name distinct snapshot directories. |
| Repository.Commit | src/lostcontrol/repo.rs:172-234 | Commit fails, in this order: when the descriptor is closed; when nothing is staged; when the directory for id count+1 exists; and when a copy fails, which leaves the new directory behind. It succeeds exactly when none of these happens. Then the new record is pushed, the staged list is cleared, and the number of staged files is returned. |
| Repository.RemoveCommit | src/lostcontrol/repo.rs:236-263 | Removal is refused on a closed descriptor and when the snapshot directory is missing. Otherwise the directory is always removed, and the removal succeeds exactly when the ledger holds the id. On success the ledger loses that commit and the descriptor is marked modified. |
| Repository.CopyAll | src/lostcontrol/repo.rs:303-335 | Succeeds exactly when every copy succeeds. Files outside the snapshot keep their content. On success, every snapshot file holds the snapshot's content. |
| Repository.RestoreCommit | src/lostcontrol/repo.rs:267-336 | Restore is refused on a closed descriptor, and fails when the snapshot directory is absent. It succeeds exactly when the descriptor is open, the directory exists and every copy succeeds. It never removes a file of the working directory, files outside the snapshot keep their content, and after a success every snapshot file is restored. |
| Repository.GetBranch | src/lostcontrol/repo.rs:338-352 | Refused on a closed descriptor. Otherwise the result is that of loading `<reposDir>/<branch>/<branch>.conf`. |
| Repository.LoadAll | src/lostcontrol/repo.rs:360-371 | Succeeds exactly when every ledger loads, and then holds one ledger per name, in order. |
| Repository.GetBranches | src/lostcontrol/repo.rs:354-372 | Refused on a closed descriptor. Otherwise it returns the ledger `get_branch` gives for each branch, in order, or fails when some branch fails to load. |
| Repository.EmptyLedgerWrite | src/lostcontrol/repo.rs:402 | The file written for a new branch is exactly what closing a fresh empty ledger writes. |
| Repository.BranchDirs | src/lostcontrol/repo.rs:396-405 | No existing directory is created again. Every directory created is that of one of the branches. Every branch whose directory is missing gets one. Every ledger file written is a fresh empty ledger of a branch whose directory was missing, so no existing history is overwritten. |
| Repository.BranchDirsWriteLedgers | src/lostcontrol/repo.rs:396-405 | The first branch that names a missing directory gets a fresh ledger file in it. |
| Repository.BranchDirsWriteAfterCreate | src/lostcontrol/repo.rs:396-405 | Every ledger file written comes right after the creation of its branch's directory, which was missing. It is the fresh empty ledger of that branch. |
| Repository.Close | src/lostcontrol/repo.rs:374-408 | A closed or unmodified descriptor writes nothing. Otherwise the descriptor file is written first and the repository directory is created when missing. No existing directory is created again, and every directory created is the repository directory or the directory of a branch. Every later write is a fresh empty ledger of a branch whose directory was missing, and the descriptor becomes closed. |
| RepositoryProps.CommitAppendsRecord | src/lostcontrol/repo.rs:184-233 | A successful commit appends one record. Its id is the previous count plus one and its file list is the staged list. The staged list is cleared, the count of files is returned, and the snapshot directory exists. |
| RepositoryProps.CommitKeepsLedgerSound | src/lostcontrol/repo.rs:189-205 | While every commit has its directory, a successful commit keeps the ids unique and the directories in step with the ledger. |
| RepositoryProps.RemoveKeepsLedgerSound | src/lostcontrol/repo.rs:236-263 | A removal keeps every remaining commit's directory. A successful removal leaves the id unfindable, the ids unique, the count one lower, and the tail invariant intact. |
| RepositoryProps.IdReuseAfterRemove | src/lostcontrol/repo.rs:189-190 | In a history numbered 1..n, removing any commit but the last makes the next computed id n, which is already taken. |
| RepositoryProps.CollisionBlocksCommit | src/lostcontrol/repo.rs:196-205 | When the next computed id is already held by a commit whose directory exists, a commit fails and changes nothing. |
| RepositoryProps.RemoveThenCommitCollides | src/lostcontrol/repo.rs:172-263 | In a history numbered 1..n, removing a commit other than the last succeeds. The next commit then fails on an existing directory and leaves the staged list and the ledger untouched. |
| RepositoryProps.RemoveFirstOfTwo | src/lostcontrol/repo.rs:172-263 | Take the ledger [1, 2] of "master" and remove commit 1. Only `master-commit-2` is left, and the next commit fails because id 2 is taken. |
| RepositoryProps.InitFresh | src/lostcontrol/repo.rs:60-90 | Initialising an empty directory gives the branch "master" with nothing staged, with `./.lostcontrol.conf` ignored and the repository directory `.lostcontrol`. |
| RepositoryProps.StageOne | src/lostcontrol/repo.rs:135-156 | Staging one file that is not ignored, with nothing staged yet, stages exactly that file. |
| RepositoryProps.CommitThenRemove | src/lostcontrol/repo.rs:172-263 | Committing one staged file on an empty "master" ledger records commit 1 in `master-commit-1`. Removing commit 1 then empties the ledger, resets the current commit to 0 and removes the directory. |
| RepositoryProps.Step | src/lostcontrol/repo.rs:135-170 | One stage, unstage or unstage-all call keeps the staged list free of duplicates and of ignored files. |
| RepositoryProps.StagingKeepsValid | src/lostcontrol/repo.rs:135-170 | Over any sequence of stage and unstage calls, the staged list stays free of duplicates and of ignored files. |
| RepositoryProps.CloseIdempotent | src/lostcontrol/repo.rs:374-377 | Finalising twice writes at most once. The second call does nothing, whatever is on disk by then. |
| RepositoryProps.ClosedRepoReloads | src/lostcontrol/repo.rs:92-133 | If the YAML codec round-trips the body, the descriptor file written by `close` loads back as the same descriptor, unmodified. |
| RepositoryProps.CloseCreatesBranchLedgers | src/lostcontrol/repo.rs:396-405 | Finalising gives every branch whose directory is missing a directory and a fresh empty ledger file. |
| RepositoryProps.CloseWritesAfterCreate | src/lostcontrol/repo.rs:383-405 | After the descriptor file, every ledger file that finalising writes comes right after the creation of its branch's directory, which was missing. No ledger is written into a directory that has not been created. |
| RepositoryProps.EmptyLedgerFoundByGetBranch | src/lostcontrol/repo.rs:338-352 | The empty ledger that `close` writes for a new branch is what `get_branch` then loads: the same path, an empty history and current commit 0. |

## Left out

- The command-line front end in src/main.rs is not part of this model.
- `expand_directory` and its helpers in src/lostcontrol/mod.rs are a parameter of the model, the `expand` function of `Collector`. It is assumed to list the files below a directory while skipping ignored directories, and its order and recursion are not modelled.
- YAML (`serde_yaml`) is given as encode and decode function parameters. The round-trip lemmas require the two to agree on the body.
- `CommitRecord.Render`: `get_time_formatted` panics when the stored timestamp is not valid RFC 3339. The `localTime` parameter is total, so the model does not capture that panic.
- `Collector`: `expand_directory` panics through `read_dir(...).unwrap()` and `grab_directories(...).unwrap()` when a directory cannot be read. `expand` is total and does not model this panic.
- The clock (`chrono::Utc::now`) is the `now` parameter. `get_time_formatted` is the `localTime` parameter of `Render`, because its time-zone conversion is not modelled.
- Ids are unbounded `nat`s. The overflow of `usize` in `commit_count() + 1` cannot happen in practice and is not modelled.
- Panics in `close` (the file cannot be created, the directory cannot be created) are not modelled. `close` is assumed to succeed and returns the list of changes it makes.
- The automatic close in `Drop` is modelled as an explicit call to `Close`.
- Debug output (`dprintln!`) is not modelled.
- `Repository.Commit`, `Repository.RemoveCommit` and `Repository.RestoreCommit` receive the ledger of the current branch as a parameter. The source loads it with `get_branch(...).unwrap()`, which panics if the ledger cannot be loaded, and that path is not modelled. The ledger after the call is part of the outcome, because the source writes it when the loaded copy is dropped.
- `Repository.Commit`: `create_dir` of the snapshot directory is modelled as failing only when that directory already exists. It also fails when the branch directory `<reposDir>/<branch>` is missing or cannot be written, and those failures are not modelled.
- `Repository.Commit`: the directories a copy needs and the copies themselves are folded into one success predicate per staged file. The partial contents of a snapshot after a failed copy are not modelled, only the directory left behind.
- `Repository.RemoveCommit`: `remove_dir_all` is modelled as failing only when the directory is absent. Other I/O failures are not modelled.
- `Repository.RestoreCommit`: the working directory is canonicalised from the process's current directory, which is not modelled. The snapshot listing and the file contents are parameters. The source also lists the working directory (`restore_dir_files`) and never uses the result. That listing is not modelled, and neither is its panic on an unreadable directory, which would abort the restore before any copy. The mirror-and-prune step is commented out in the source, so nothing is ever deleted.
- `Repository.FromFile`: `canonicalize` and the current-directory default are not modelled. The directory is given already resolved.
- Files that are not valid UTF-8 are not modelled. A read that fails partway (`line.unwrap()` panicking) is folded into the reader returning nothing.
- BranchLedger.New: as `set_extension` does, the extension is set only on the last component of `<root>/<name>/<name>`, and a last component ".." is left alone. `PathBuf` normalisation is not modelled: for an empty name, a name ending in '/', or a "." component, the model keeps the text as written, where `PathBuf` would drop the trailing separator or the "." before taking the last component.
- Repository.GetBranch: the ledger path is computed as in `BranchLedger.New` and has the same limits for empty names, trailing '/' and "." components.
- `Paths.Join` models only the absolute-path replacement and the separator rule of `PathBuf::join`, not the normalisation of a part like "./x".

=== FILE: base.dfy ===
/** Shared vocabulary of the model: optional values, results carrying an
    error kind, and small facts about sequences used by every component. */
module Base {

  datatype Option<+T> = None | Some(value: T)

  /** The source returns `Err(())` on every failure; the error kind here only
      names which branch of the source produced the failure. */
  datatype Error =
    | AlreadyExists       // a repository is already initialised at the root
    | Unreadable          // a persisted file cannot be opened
    | UnsupportedVersion  // the first line differs from the current config version
    | Malformed           // the body after the version line does not parse
    | Aborted             // the source panics (an `unwrap` or `panic!`) on this path
    | NotFound            // no descriptor file, empty ledger, or no commit with the id
    | Closed              // the repository has already been finalised
    | NothingStaged       // commit with an empty staged list
    | CreateDirFailed     // the snapshot directory cannot be created
    | CopyFailed          // copying a staged file into the snapshot failed
    | RemoveDirFailed     // the snapshot directory cannot be removed

  datatype Result<+T> = Ok(value: T) | Err(error: Error)

  /** No element occurs twice. */
  predicate NoDup<T(==)>(s: seq<T>)
  {
    forall i, j :: 0 <= i < j < |s| ==> s[i] != s[j]
  }

  /** Index of the first occurrence of `x` in `s`, or `|s|` when absent. */
  function FirstIndex<T(==)>(s: seq<T>, x: T): (k: nat)
    ensures k <= |s|
    ensures k < |s| <==> x in s
    ensures k < |s| ==> s[k] == x
    ensures forall j :: 0 <= j < k ==> s[j] != x
  {
    if s == [] then 0
    else if s[0] == x then 0
    else 1 + FirstIndex(s[1..], x)
  }

  /** `a` is obtained from `b` by deleting elements, keeping the order. */
  predicate Subseq<T(==)>(a: seq<T>, b: seq<T>)
    decreases |b|
  {
    if a == [] then true
    else if b == [] then false
    else if a[0] == b[0] then Subseq(a[1..], b[1..])
    else Subseq(a, b[1..])
  }

  /** First occurrence indices only depend on the prefix that holds `x`. */
  lemma {:induction false} FirstIndexPrefix<T>(s: seq<T>, k: nat, x: T)
    requires k <= |s|
    requires x in s[..k]
    ensures FirstIndex(s, x) == FirstIndex(s[..k], x)
    decreases k
  {
    if s[0] != x {
      assert s[1..][..k-1] == s[..k][1..];
      assert x in s[1..][..k-1];
      FirstIndexPrefix(s[1..], k - 1, x);
    }
  }

  /** Deleting one position leaves a subsequence. */
  lemma {:induction false} DropOneSubseq<T>(s: seq<T>, i: nat)
    requires i < |s|
    ensures Subseq(s[..i] + s[i+1..], s)
  {
    if i == 0 {
      assert s[..0] + s[1..] == s[1..];
      SubseqSelf(s[1..]);
      SubseqSkip(s[1..], s);
    } else {
      DropOneSubseq(s[1..], i - 1);
      assert (s[..i] + s[i+1..])[1..] == s[1..][..i-1] + s[1..][i..];
    }
  }

  lemma {:induction false} SubseqSelf<T>(s: seq<T>)
    ensures Subseq(s, s)
  {
    if s != [] {
      SubseqSelf(s[1..]);
    }
  }

  /** A subsequence of a tail is a subsequence of the whole. */
  lemma {:induction false} SubseqSkip<T>(a: seq<T>, s: seq<T>)
    requires |s| > 0
    requires Subseq(a, s[1..])
    ensures Subseq(a, s)
    decreases |a| + |s|
  {
    if a != [] && a[0] == s[0] {
      SubseqTail(a, s[1..]);
    }
  }

  /** Dropping the head of a subsequence keeps it a subsequence. */
  lemma {:induction false} SubseqTail<T>(a: seq<T>, s: seq<T>)
    requires a != []
    requires Subseq(a, s)
    ensures Subseq(a[1..], s)
    decreases |a| + |s|
  {
    if s != [] {
      if a[0] == s[0] {
        SubseqSkip(a[1..], s);
      } else {
        SubseqTail(a, s[1..]);
        SubseqSkip(a[1..], s);
      }
    }
  }
}

=== FILE: branch_config.dfy ===
/** The branch ledger: the ordered commit history of one branch, the id of
    its last commit, and the open/modified/closed lifecycle that decides when
    the ledger file is written. */
module BranchLedger {

  import opened Base
  import opened Paths
  import opened Text
  import opened Persist
  import opened CommitRecord

  /** `closed`, `modified` and `configPath` live only in memory; the other
      three fields are what the ledger file stores. */
  datatype BranchConfig = BranchConfig(
    closed: bool,
    modified: bool,
    configPath: Path,
    name: string,
    currentCommit: nat,
    commits: seq<Commit>)

  /** The serialised part of a ledger. */
  datatype LedgerBody = LedgerBody(name: string, currentCommit: nat, commits: seq<Commit>)

  /** What the ledger write after `close` leaves behind. */
  datatype Closing = Closing(ledger: BranchConfig, effects: seq<Effect>)

  function BodyOf(b: BranchConfig): LedgerBody
  {
    LedgerBody(b.name, b.currentCommit, b.commits)
  }

  /** `<root>/<name>/<name>` with its extension set to "conf". */
  function LedgerPath(root: Path, name: string): Path
  {
    SetPathExtension(Join(Join(root, name), name), "conf")
  }

  /** The id of the last commit, or 0 for an empty history. */
  function LastId(commits: seq<Commit>): nat
  {
    if commits == [] then 0 else commits[|commits|-1].id
  }

  /** `current_commit` tracks the tail of the history. */
  predicate Valid(b: BranchConfig)
  {
    b.currentCommit == LastId(b.commits)
  }

  predicate HasId(commits: seq<Commit>, id: nat)
  {
    exists i :: 0 <= i < |commits| && commits[i].id == id
  }

  /** No two commits of the history share an id. */
  predicate UniqueIds(commits: seq<Commit>)
  {
    forall i, j :: 0 <= i < j < |commits| ==> commits[i].id != commits[j].id
  }

  /** `BranchConfig::new`: an open, modified, empty ledger. */
  function New(name: string, root: Path): (b: BranchConfig)
    ensures !b.closed && b.modified
    ensures b.name == name && b.commits == [] && b.currentCommit == 0
    ensures b.configPath == LedgerPath(root, name)
    ensures Valid(b)
  {
    BranchConfig(false, true, LedgerPath(root, name), name, 0, [])
  }

  /** Joining a relative name twice onto a root without a trailing '/'. */
  lemma JoinTwice(root: Path, name: string)
    requires |name| > 0 && name[0] != '/' && name[|name|-1] != '/'
    requires |root| > 0 && root[|root|-1] != '/'
    ensures Join(Join(root, name), name) == root + "/" + name + "/" + name
  {
    var dir := root + "/" + name;
    assert Join(root, name) == dir;
    assert dir[|dir|-1] == name[|name|-1];
  }

  /** For a plain branch name the ledger file is `<root>/<name>/<name>.conf`. */
  lemma PlainLedgerPath(root: Path, name: string)
    requires '.' !in name && '/' !in name && |name| > 0
    requires |root| > 0 && root[|root|-1] != '/'
    ensures LedgerPath(root, name) == root + "/" + name + "/" + name + ".conf"
  {
    assert name[0] != '/' && name[|name|-1] != '/';
    JoinTwice(root, name);
    var dir := root + "/" + name;
    SetPathExtensionBelow(dir, name, "conf");
    SetExtensionPlain(name, "conf");
    assert name + "." + "conf" == name + ".conf";
    assert dir + "/" + (name + ".conf") == dir + "/" + name + ".conf";
  }

  /** A new ledger for a plain branch name lives at `<root>/<name>/<name>.conf`. */
  lemma NewPathPlain(name: string, root: Path)
    requires '.' !in name && '/' !in name && |name| > 0
    requires |root| > 0 && root[|root|-1] != '/'
    ensures New(name, root).configPath == root + "/" + name + "/" + name + ".conf"
  {
    PlainLedgerPath(root, name);
  }

  /** A branch name with directories keeps them: only its last component
      gets the extension, whatever dots the directories hold. */
  lemma NestedNamePath(root: Path, parent: string, base: string)
    requires '.' !in base && '/' !in base && |base| > 0
    requires |parent| > 0 && parent[0] != '/'
    requires |root| > 0 && root[|root|-1] != '/'
    ensures LedgerPath(root, parent + "/" + base)
         == root + "/" + parent + "/" + base + "/" + parent + "/" + base + ".conf"
  {
    var name := parent + "/" + base;
    assert name[|name|-1] == base[|base|-1];
    JoinTwice(root, name);
    var front := root + "/" + name + "/" + parent;
    assert root + "/" + name + "/" + name == front + "/" + base;
    SetPathExtensionBelow(front, base, "conf");
    SetExtensionPlain(base, "conf");
  }

  /** `BranchConfig::from_file`: the file must open, its first line must be
      the current version, and the rest must decode. A loaded ledger is open
      and unmodified, and remembers the path it came from. */
  function FromFile(path: Path, read: Path -> Option<string>, decode: string -> Option<LedgerBody>)
    : (r: Result<BranchConfig>)
    ensures read(path).None? ==> r == Err(Unreadable)
    ensures r.Ok? <==> (
      && read(path).Some?
      && ReadVersioned(read(path).value).Ok?
      && decode(ReadVersioned(read(path).value).value).Some?)
    ensures read(path).Some? && ReadVersioned(read(path).value).Err? ==> r == Err(UnsupportedVersion)
    ensures r.Ok? ==> ReadVersioned(read(path).value).Ok?
    ensures r.Ok? ==> !r.value.closed && !r.value.modified && r.value.configPath == path
    ensures r.Ok? ==> Some(BodyOf(r.value)) == decode(ReadVersioned(read(path).value).value)
  {
    match read(path)
    case None => Err(Unreadable)
    case Some(content) =>
      match ReadVersioned(content)
      case Err(e) => Err(e)
      case Ok(text) =>
        match decode(text)
        case None => Err(Malformed)
        case Some(body) => Ok(BranchConfig(false, false, path, body.name, body.currentCommit, body.commits))
  }

  /** `push_commit`: on an open ledger the commit goes to the end and
      becomes the current one; a closed ledger ignores it. */
  function PushCommit(b: BranchConfig, c: Commit): (r: BranchConfig)
    ensures b.closed ==> r == b
    ensures !b.closed ==>
      && |r.commits| == |b.commits| + 1
      && r.commits[..|b.commits|] == b.commits
      && r.commits[|b.commits|] == c
      && r.currentCommit == c.id
      && r.modified
      && r.closed == b.closed && r.name == b.name && r.configPath == b.configPath
    ensures Valid(b) ==> Valid(r)
  {
    if b.closed then b
    else b.(currentCommit := c.id, commits := b.commits + [c], modified := true)
  }

  /** Position of the first commit with the id. */
  function FindCommit(commits: seq<Commit>, id: nat): (r: Option<nat>)
    ensures r.None? <==> !HasId(commits, id)
    ensures r.Some? ==> r.value < |commits| && commits[r.value].id == id
    ensures r.Some? ==> forall j :: 0 <= j < r.value ==> commits[j].id != id
  {
    if commits == [] then None
    else if commits[0].id == id then Some(0)
    else match FindCommit(commits[1..], id)
      case None => None
      case Some(k) => Some(k + 1)
  }

  /** `remove_commit`: fails on an empty ledger or an unknown id; otherwise
      drops the first commit with the id, re-derives the current id from the
      new tail and marks the ledger modified. The closed flag is not consulted. */
  function RemoveCommit(b: BranchConfig, id: nat): (r: Result<BranchConfig>)
    ensures r.Err? <==> !HasId(b.commits, id)
    ensures r.Err? ==> r.error == NotFound
    ensures r.Ok? ==>
      var i := FindCommit(b.commits, id).value;
      && r.value.commits == b.commits[..i] + b.commits[i+1..]
      && |r.value.commits| == |b.commits| - 1
      && Valid(r.value)
      && r.value.modified
      && r.value.closed == b.closed && r.value.name == b.name && r.value.configPath == b.configPath
  {
    if |b.commits| == 0 then Err(NotFound)
    else match FindCommit(b.commits, id)
      case None => Err(NotFound)
      case Some(i) =>
        var rest := b.commits[..i] + b.commits[i+1..];
        Ok(b.(commits := rest, currentCommit := LastId(rest), modified := true))
  }

  /** `get_commit`: the first commit with the id, if any. */
  function GetCommit(b: BranchConfig, id: nat): (r: Option<Commit>)
    ensures r.None? <==> !HasId(b.commits, id)
    ensures r.Some? ==> r.value.id == id
    ensures r.Some? ==> exists i :: 0 <= i < |b.commits| && b.commits[i] == r.value
                          && forall j :: 0 <= j < i ==> b.commits[j].id != id
  {
    match FindCommit(b.commits, id)
    case None => None
    case Some(i) => Some(b.commits[i])
  }

  /** `get_commits`: a copy of the whole history, oldest first. */
  function GetCommits(b: BranchConfig): (r: seq<Commit>)
    ensures r == b.commits
  {
    b.commits
  }

  /** In a history without repeated ids, every commit `get_commits` lists is
      exactly what `get_commit` finds for its id, and nothing else is found. */
  lemma GetCommitsAgreesWithGetCommit(b: BranchConfig, id: nat)
    requires UniqueIds(b.commits)
    ensures forall i :: 0 <= i < |GetCommits(b)| ==>
      GetCommit(b, GetCommits(b)[i].id) == Some(GetCommits(b)[i])
    ensures GetCommit(b, id).Some? ==> GetCommit(b, id).value in GetCommits(b)
  {
    forall i | 0 <= i < |b.commits|
      ensures GetCommit(b, b.commits[i].id) == Some(b.commits[i])
    {
      var k := FindCommit(b.commits, b.commits[i].id).value;
      assert k <= i;
      assert k == i;
    }
  }

  /** `commit_count`: the number of commits held, unrelated to any id. */
  function CommitCount(b: BranchConfig): (n: nat)
    ensures n == |GetCommits(b)|
  {
    |b.commits|
  }

  /** `close`: a closed or unmodified ledger writes nothing; otherwise the
      version line and the body are written to the ledger file, once, and the
      ledger becomes closed. The history itself is never touched. */
  function Close(b: BranchConfig, encode: LedgerBody -> string): (r: Closing)
    ensures |r.effects| <= 1
    ensures |r.effects| == 1 <==> !b.closed && b.modified
    ensures r.ledger.closed <==> b.closed || b.modified
    ensures r.ledger == b.(closed := r.ledger.closed)
    ensures forall e :: e in r.effects ==> e == WriteFile(b.configPath, Serialize(encode(BodyOf(b))))
  {
    if b.closed || !b.modified then Closing(b, [])
    else Closing(b.(closed := true), [WriteFile(b.configPath, Serialize(encode(BodyOf(b))))])
  }

  /** Closing twice performs at most one write, and the second call changes
      nothing at all. */
  lemma CloseIdempotent(b: BranchConfig, encode: LedgerBody -> string)
    ensures Close(Close(b, encode).ledger, encode) == Closing(Close(b, encode).ledger, [])
    ensures |Close(b, encode).effects| + |Close(Close(b, encode).ledger, encode).effects| <= 1
  {
  }

  /** Whatever the body, the file `close` writes passes the version check of
      `from_file`. */
  lemma ClosedLedgerPassesVersionCheck(b: BranchConfig, encode: LedgerBody -> string)
    ensures forall e :: e in Close(b, encode).effects ==> ReadVersioned(e.content).Ok?
  {
    SerializedPassesCheck(encode(BodyOf(b)));
  }

  /** A written ledger loads back equal to what was written, unmodified,
      provided the YAML encoder and decoder agree on its body and the encoded
      body is plain text. */
  lemma ClosedLedgerReloads(b: BranchConfig, encode: LedgerBody -> string,
                            decode: string -> Option<LedgerBody>, read: Path -> Option<string>)
    requires !b.closed && b.modified
    requires decode(encode(BodyOf(b))) == Some(BodyOf(b))
    requires PlainText(encode(BodyOf(b)))
    requires read(b.configPath) == Some(Close(b, encode).effects[0].content)
    ensures FromFile(b.configPath, read, decode) == Ok(b.(modified := false))
  {
    SerializeRoundTrip(encode(BodyOf(b)));
  }

  /** After a successful removal from a history without repeated ids the id is
      gone, the ids stay unique, and the other commits keep their order. */
  lemma RemoveThenGet(b: BranchConfig, id: nat)
    requires UniqueIds(b.commits)
    requires RemoveCommit(b, id).Ok?
    ensures GetCommit(RemoveCommit(b, id).value, id).None?
    ensures UniqueIds(RemoveCommit(b, id).value.commits)
    ensures Subseq(RemoveCommit(b, id).value.commits, b.commits)
  {
    var i := FindCommit(b.commits, id).value;
    var rest := RemoveCommit(b, id).value.commits;
    assert rest == b.commits[..i] + b.commits[i+1..];
    forall k | 0 <= k < |rest|
      ensures rest[k].id != id
      ensures k < i ==> rest[k] == b.commits[k]
      ensures k >= i ==> rest[k] == b.commits[k + 1]
    {
    }
    DropOneSubseq(b.commits, i);
  }
}

=== FILE: commit.dfy ===
/** The commit record: an immutable description of one snapshot (its id,
    message, creation time and the files it captured) and its text
    rendering used when listing history. */
module CommitRecord {

  import opened Base
  import opened Decimal
  import opened Text

  /** `creationDatetime` is the RFC 3339 timestamp taken when the record was
      created; the model treats it as opaque text. */
  datatype Commit = Commit(
    id: nat,
    message: string,
    creationDatetime: string,
    modifiedFiles: seq<string>)

  /** `Commit::new`. The clock reading is the parameter `now`. */
  function NewCommit(id: nat, message: string, modifiedFiles: seq<string>, now: string): (c: Commit)
    ensures c.id == id
    ensures c.message == message
    ensures c.modifiedFiles == modifiedFiles
    ensures c.creationDatetime == now
  {
    Commit(id, message, now, modifiedFiles)
  }

  /** The hand-written `Clone`: every field is copied. */
  function Clone(c: Commit): (r: Commit)
    ensures r == c
  {
    Commit(c.id, c.message, c.creationDatetime, c.modifiedFiles)
  }

  /** The four header lines of the rendering, each ended by "\n". */
  function RenderHeader(c: Commit, time: string): string
  {
    "ID: " + NatToString(c.id) + "\nMessage: " + c.message
      + "\nCreated at: " + time + "\nModified Files:\n"
  }

  /** One indented line per modified file. */
  function RenderFiles(files: seq<string>): string
  {
    if files == [] then [] else "  " + files[0] + "\n" + RenderFiles(files[1..])
  }

  /** The `Display` implementation. `localTime` stands for
      `get_time_formatted`, which re-formats the stored timestamp in local time. */
  function Render(c: Commit, localTime: string -> string): (text: string)
    ensures RenderHeader(c, localTime(c.creationDatetime)) <= text
  {
    RenderHeader(c, localTime(c.creationDatetime)) + RenderFiles(c.modifiedFiles)
  }

  /** The lines a reader sees in the rendering. */
  function ExpectedLines(c: Commit, time: string): seq<string>
  {
    ["ID: " + NatToString(c.id), "Message: " + c.message, "Created at: " + time, "Modified Files:"]
      + IndentAll(c.modifiedFiles)
  }

  function IndentAll(files: seq<string>): (ls: seq<string>)
    ensures |ls| == |files|
    ensures forall i :: 0 <= i < |files| ==> ls[i] == "  " + files[i]
  {
    if files == [] then [] else ["  " + files[0]] + IndentAll(files[1..])
  }

  /** The file block is the indented file names, each ended by "\n". */
  lemma {:induction false} RenderFilesJoined(files: seq<string>)
    ensures RenderFiles(files) == JoinLines(IndentAll(files))
  {
    if files != [] {
      RenderFilesJoined(files[1..]);
      assert IndentAll(files)[1..] == IndentAll(files[1..]);
    }
  }

  lemma HeaderJoined(id: string, message: string, time: string, rest: string)
    ensures "ID: " + id + "\nMessage: " + message + "\nCreated at: " + time + "\nModified Files:\n" + rest
      == ("ID: " + id) + "\n" + (("Message: " + message) + "\n"
           + (("Created at: " + time) + "\n" + ("Modified Files:" + "\n" + rest)))
  {
    assert "\nMessage: " == "\n" + "Message: ";
    assert "\nCreated at: " == "\n" + "Created at: ";
    assert "\nModified Files:\n" == "\n" + "Modified Files:" + "\n";
  }

  /** The rendering is the expected lines, each ended by "\n". */
  lemma RenderJoined(c: Commit, time: string)
    ensures RenderHeader(c, time) + RenderFiles(c.modifiedFiles) == JoinLines(ExpectedLines(c, time))
  {
    var ls := ExpectedLines(c, time);
    RenderFilesJoined(c.modifiedFiles);
    HeaderJoined(NatToString(c.id), c.message, time, RenderFiles(c.modifiedFiles));
    var ls1, ls2, ls3 := ls[1..], ls[1..][1..], ls[1..][1..][1..];
    assert ls3[1..] == IndentAll(c.modifiedFiles);
    assert JoinLines(ls3) == "Modified Files:" + "\n" + RenderFiles(c.modifiedFiles);
    assert JoinLines(ls2) == ("Created at: " + time) + "\n" + JoinLines(ls3);
    assert JoinLines(ls1) == ("Message: " + c.message) + "\n" + JoinLines(ls2);
    assert JoinLines(ls) == ("ID: " + NatToString(c.id)) + "\n" + JoinLines(ls1);
  }

  /** No expected line holds a line break when the message, time and file
      names are single lines. */
  lemma ExpectedSingleLines(c: Commit, time: string)
    requires SingleLine(c.message)
    requires SingleLine(time)
    requires forall i :: 0 <= i < |c.modifiedFiles| ==> SingleLine(c.modifiedFiles[i])
    ensures forall i :: 0 <= i < |ExpectedLines(c, time)| ==> SingleLine(ExpectedLines(c, time)[i])
  {
    var ls := ExpectedLines(c, time);
    forall i | 0 <= i < |ls|
      ensures SingleLine(ls[i])
    {
      if i >= 4 {
        assert SingleLine(c.modifiedFiles[i - 4]);
      } else if i == 0 {
        assert '\n' !in NatToString(c.id);
      }
    }
  }

  /** The rendering consists of exactly the header lines and one line per
      modified file, in list order, when the message, time and file names are
      single lines. */
  lemma RenderLines(c: Commit, localTime: string -> string)
    requires SingleLine(c.message)
    requires SingleLine(localTime(c.creationDatetime))
    requires forall i :: 0 <= i < |c.modifiedFiles| ==> SingleLine(c.modifiedFiles[i])
    ensures Lines(Render(c, localTime)) == ExpectedLines(c, localTime(c.creationDatetime))
  {
    var time := localTime(c.creationDatetime);
    RenderJoined(c, time);
    ExpectedSingleLines(c, time);
    LinesOfJoinLines(ExpectedLines(c, time));
  }

  /** The id can be read back from the first line of the rendering. */
  lemma RenderedIdReadsBack(c: Commit, localTime: string -> string)
    ensures |FirstLine(Render(c, localTime))| >= 4
    ensures FirstLine(Render(c, localTime))[..4] == "ID: "
    ensures ParseDecimal(FirstLine(Render(c, localTime))[4..]) == Some(c.id)
  {
    var l1 := "ID: " + NatToString(c.id);
    var rest := Render(c, localTime)[|l1| + 1..];
    assert Render(c, localTime) == l1 + "\n" + rest;
    assert '\n' !in NatToString(c.id);
    LinesOfPrefixed(l1, rest);
    assert l1[4..] == NatToString(c.id);
    ParseNatToString(c.id);
  }
}

=== FILE: decimal.dfy ===
/** Decimal rendering of unsigned integers, as `format!("{}", n)` writes a
    `usize`, and its inverse. Commit ids appear in snapshot directory names
    and in the text rendering of a commit. */
module Decimal {

  import opened Base

  function DigitChar(d: nat): (c: char)
    requires d < 10
    ensures '0' <= c <= '9'
  {
    "0123456789"[d]
  }

  function DigitValue(c: char): (d: nat)
    requires '0' <= c <= '9'
    ensures d < 10
  {
    (c as int - '0' as int) as nat
  }

  lemma DigitRoundTrip(d: nat)
    requires d < 10
    ensures DigitValue(DigitChar(d)) == d
  {
  }

  predicate IsDigits(s: string)
  {
    forall i :: 0 <= i < |s| ==> '0' <= s[i] <= '9'
  }

  /** Most significant digit first, no leading zeros, "0" for zero. */
  function NatToString(n: nat): (s: string)
    ensures |s| > 0
    ensures IsDigits(s)
    ensures n >= 10 ==> s[0] != '0'
  {
    if n < 10 then [DigitChar(n)]
    else NatToString(n / 10) + [DigitChar(n % 10)]
  }

  /** Parses a non-empty run of digits. */
  function ParseDecimal(s: string): (r: Option<nat>)
    ensures r.Some? <==> |s| > 0 && IsDigits(s)
  {
    if |s| == 0 || !('0' <= s[|s|-1] <= '9') then None
    else if |s| == 1 then Some(DigitValue(s[0]))
    else match ParseDecimal(s[..|s|-1])
      case None => None
      case Some(v) => Some(v * 10 + DigitValue(s[|s|-1]))
  }

  /** Parsing the rendering of `n` gives back `n`. */
  lemma {:induction false} ParseNatToString(n: nat)
    ensures ParseDecimal(NatToString(n)) == Some(n)
  {
    var s := NatToString(n);
    if n < 10 {
      DigitRoundTrip(n);
    } else {
      ParseNatToString(n / 10);
      assert s[..|s|-1] == NatToString(n / 10);
      DigitRoundTrip(n % 10);
    }
  }

  /** Distinct numbers have distinct renderings. */
  lemma NatToStringInjective(a: nat, b: nat)
    requires NatToString(a) == NatToString(b)
    ensures a == b
  {
    ParseNatToString(a);
    ParseNatToString(b);
  }
}

=== FILE: paths.dfy ===
/** The little of Rust's `PathBuf` the core relies on: `join` and
    `set_extension`, over plain strings with "/" as separator. */
module Paths {

  type Path = string

  /** `base.join(part)`: an absolute `part` replaces the base; otherwise a
      separator is inserted unless the base is empty or already ends in one. */
  function Join(base: Path, part: Path): (r: Path)
    ensures |part| > 0 && part[0] == '/' ==> r == part
  {
    if |part| > 0 && part[0] == '/' then part
    else if base == [] then part
    else if base[|base|-1] == '/' then base + part
    else base + "/" + part
  }

  /** Index of the last occurrence of `c` in `s`, or -1 when there is none. */
  function LastIndex(s: string, c: char): (k: int)
    ensures -1 <= k < |s|
    ensures k >= 0 ==> s[k] == c
    ensures forall j :: k < j < |s| ==> s[j] != c
  {
    if s == [] then -1
    else if s[|s|-1] == c then |s| - 1
    else LastIndex(s[..|s|-1], c)
  }

  /** `set_extension` applied to a single file name: the part after the last
      '.' is replaced, unless that '.' is the leading one of a hidden name;
      ".." has no file name and is left alone. */
  function SetExtension(name: string, ext: string): (r: string)
  {
    if name == ".." then name
    else
      var k := LastIndex(name, '.');
      if k > 0 then name[..k] + "." + ext else name + "." + ext
  }

  /** For a name without any '.', the extension is simply appended. */
  lemma SetExtensionPlain(name: string, ext: string)
    requires '.' !in name
    ensures SetExtension(name, ext) == name + "." + ext
  {
    if LastIndex(name, '.') >= 0 {
      assert name[LastIndex(name, '.')] == '.';
    }
  }

  /** `path.set_extension(ext)`: only the last component, after the last
      '/', has its extension set; everything up to that '/' is kept. */
  function SetPathExtension(path: Path, ext: string): Path
  {
    if '/' !in path then SetExtension(path, ext)
    else [path[0]] + SetPathExtension(path[1..], ext)
  }

  /** Below a directory, only the final name gets the extension. */
  lemma {:induction false} SetPathExtensionBelow(dir: Path, name: string, ext: string)
    requires '/' !in name
    ensures SetPathExtension(dir + "/" + name, ext) == dir + "/" + SetExtension(name, ext)
  {
    var p := dir + "/" + name;
    var named := SetExtension(name, ext);
    assert p[|dir|] == '/';
    if dir == [] {
      assert p[1..] == name;
      assert SetPathExtension(p, ext) == [p[0]] + named;
    } else {
      assert p[1..] == dir[1..] + "/" + name;
      SetPathExtensionBelow(dir[1..], name, ext);
      assert SetPathExtension(p, ext) == [dir[0]] + (dir[1..] + "/" + named);
      assert [dir[0]] + (dir[1..] + "/" + named) == dir + "/" + named;
    }
  }
}

=== FILE: persist.dfy ===
/** The persisted layout shared by the repository descriptor and every
    branch ledger: the format version on the first line, then the serialised
    body. The body's YAML encoding is opaque to the model. */
module Persist {

  import opened Base
  import opened Text
  import opened Paths

  /** A filesystem change a finalising `close` performs. */
  datatype Effect = CreateDir(path: Path) | WriteFile(path: Path, content: string)

  /** `CURRENT_CONFIG_VERSION` of src/lostcontrol/mod.rs. */
  const CurrentConfigVersion: string := "0.0.5"

  /** What `close` writes: the version line, then the body. */
  function Serialize(body: string): (content: string)
    ensures CurrentConfigVersion + "\n" <= content
    ensures content[|CurrentConfigVersion| + 1..] == body
  {
    CurrentConfigVersion + "\n" + body
  }

  /** The version check of `from_file`: the first line must equal the
      current version; the lines after it, re-joined, are the body. */
  function ReadVersioned(content: string): (r: Result<string>)
    ensures r.Err? ==> r.error == UnsupportedVersion
  {
    if FirstLine(content) == CurrentConfigVersion then Ok(AfterFirstLine(content))
    else Err(UnsupportedVersion)
  }

  /** Exactly the contents that are the version alone, or start with the
      version followed by "\n" or "\r\n", pass the version check. */
  lemma HeaderAcceptedIff(content: string)
    ensures ReadVersioned(content).Ok? <==>
      || content == CurrentConfigVersion
      || CurrentConfigVersion + "\n" <= content
      || CurrentConfigVersion + "\r\n" <= content
  {
    var v := CurrentConfigVersion;
    assert FirstLine(v) == v by {
      assert '\n' !in v;
      assert Lines(v) == [v];
    }
    if v + "\n" <= content {
      var head, rest := content[..6], content[6..];
      assert head == v + "\n";
      assert content == head + rest;
      FirstLineOfPrefixed(v, rest);
    } else if v + "\r\n" <= content {
      var head, rest := content[..7], content[7..];
      assert head == (v + "\r") + "\n";
      assert content == head + rest;
      FirstLineOfPrefixed(v + "\r", rest);
    } else if FirstLine(content) == v {
      AcceptedShape(content);
    }
  }

  /** The first line of `a + "\n" + b` is `a`, less a final carriage return. */
  lemma FirstLineOfPrefixed(a: string, b: string)
    requires '\n' !in a
    ensures FirstLine(a + "\n" + b) == DropCR(a)
  {
    var s := a + "\n" + b;
    assert s[|a|] == '\n';
    assert forall j :: 0 <= j < |a| ==> s[j] == a[j];
    assert FirstIndex(s, '\n') == |a|;
    assert s[..|a|] == a;
  }

  /** A content whose first line is the version has one of the three shapes. */
  lemma AcceptedShape(content: string)
    requires FirstLine(content) == CurrentConfigVersion
    ensures || content == CurrentConfigVersion
            || CurrentConfigVersion + "\n" <= content
            || CurrentConfigVersion + "\r\n" <= content
  {
    var i := FirstIndex(content, '\n');
    if i < |content| {
      SplitAt(content, i);
      var line := content[..i];
      assert DropCR(line) == CurrentConfigVersion;
      if line == CurrentConfigVersion {
        assert content == CurrentConfigVersion + "\n" + content[i+1..];
      } else {
        assert line == CurrentConfigVersion + "\r";
        assert content == CurrentConfigVersion + "\r\n" + content[i+1..];
      }
    }
  }

  /** Whatever the body, a written file passes the version check. */
  lemma SerializedPassesCheck(body: string)
    ensures ReadVersioned(Serialize(body)).Ok?
  {
    HeaderAcceptedIff(Serialize(body));
  }

  /** A body that `lines()` leaves intact is read back exactly. */
  lemma SerializeRoundTrip(body: string)
    requires PlainText(body)
    ensures ReadVersioned(Serialize(body)) == Ok(body)
  {
    LinesOfPrefixed(CurrentConfigVersion, body);
    assert Lines(Serialize(body))[1..] == Lines(body);
    JoinLinesOfLines(body);
  }
}

=== FILE: repo.dfy ===
/** The repository descriptor: the staged-file list with its ignore rules,
    the branch names, and the commit / remove / restore orchestration that
    ties a branch ledger to the snapshot directories on disk.

    The filesystem enters only through parameters: the set of paths that
    exist, the names of the snapshot directories of the current branch, an
    oracle saying whether copying a file succeeds, a reader for persisted
    files, and the path collector that lists the files under a directory. */
module Repository {

  import opened Base
  import opened Paths
  import opened Persist
  import opened Decimal
  import CommitRecord
  import BranchLedger

  type BranchConfig = BranchLedger.BranchConfig

  const DefaultBranch: string := "master"
  const DefaultConfigFile: string := ".lostcontrol.conf"
  const DefaultReposDir: string := ".lostcontrol"

  /** `metafilePath`, `reposDir`, `closed` and `modified` live only in
      memory; the other fields are what the descriptor file stores. */
  datatype Repo = Repo(
    metafilePath: Path,
    reposDir: Path,
    closed: bool,
    modified: bool,
    name: string,
    currentBranch: string,
    branches: seq<string>,
    ignoredFiles: seq<string>,
    ignoredDirs: seq<string>,
    stagedFiles: seq<string>)

  /** The serialised part of a descriptor. */
  datatype RepoBody = RepoBody(
    name: string,
    currentBranch: string,
    branches: seq<string>,
    ignoredFiles: seq<string>,
    ignoredDirs: seq<string>,
    stagedFiles: seq<string>)

  function BodyOf(r: Repo): RepoBody
  {
    RepoBody(r.name, r.currentBranch, r.branches, r.ignoredFiles, r.ignoredDirs, r.stagedFiles)
  }

  /** What the filesystem says a staging argument is. */
  datatype EntryKind = File | Directory | Neither

  /** The path collector: `kind` classifies an argument, and `expand` lists
      every file below a directory, skipping the directories it is given. */
  datatype Collector = Collector(kind: Path -> EntryKind, expand: (Path, seq<string>) -> seq<Path>)

  /** The descriptor's own invariant: the staged list has no duplicates and
      holds no ignored file. */
  predicate StagingValid(r: Repo)
  {
    && NoDup(r.stagedFiles)
    && forall i :: 0 <= i < |r.stagedFiles| ==> r.stagedFiles[i] !in r.ignoredFiles
  }

  /** `Repo::new`: refuses to initialise over an existing descriptor file or
      repository directory; otherwise an open, modified descriptor with the
      single branch "master", nothing staged, and its own files ignored. */
  function New(name: string, root: Path, existing: set<Path>): (r: Result<Repo>)
    ensures r.Err? <==> Join(root, DefaultConfigFile) in existing || Join(root, DefaultReposDir) in existing
    ensures r.Err? ==> r.error == AlreadyExists
    ensures r.Ok? ==>
      && !r.value.closed && r.value.modified
      && r.value.name == name
      && r.value.currentBranch == DefaultBranch && r.value.branches == [DefaultBranch]
      && r.value.stagedFiles == []
      && r.value.metafilePath == Join(root, DefaultConfigFile)
      && r.value.reposDir == Join(root, DefaultReposDir)
      && r.value.ignoredFiles == ["./" + r.value.metafilePath]
      && r.value.ignoredDirs == ["./" + r.value.reposDir]
      && StagingValid(r.value)
  {
    var mf := Join(root, DefaultConfigFile);
    var rd := Join(root, DefaultReposDir);
    if mf in existing then Err(AlreadyExists)
    else if rd in existing then Err(AlreadyExists)
    else Ok(Repo(mf, rd, false, true, name, DefaultBranch, [DefaultBranch], ["./" + mf], ["./" + rd], []))
  }

  /** `Repo::from_file`, with `dir` the already resolved directory. A missing
      descriptor is an error; an unreadable or undecodable one makes the
      source panic; a wrong version line is an error. */
  function FromFile(dir: Path, existing: set<Path>, read: Path -> Option<string>,
                    decode: string -> Option<RepoBody>): (r: Result<Repo>)
    ensures Join(dir, DefaultConfigFile) !in existing ==> r == Err(NotFound)
    ensures r.Ok? <==> (
      && Join(dir, DefaultConfigFile) in existing
      && read(Join(dir, DefaultConfigFile)).Some?
      && ReadVersioned(read(Join(dir, DefaultConfigFile)).value).Ok?
      && decode(ReadVersioned(read(Join(dir, DefaultConfigFile)).value).value).Some?)
    ensures Join(dir, DefaultConfigFile) in existing && read(Join(dir, DefaultConfigFile)).None? ==> r == Err(Aborted)
    ensures (&& Join(dir, DefaultConfigFile) in existing && read(Join(dir, DefaultConfigFile)).Some?
             && ReadVersioned(read(Join(dir, DefaultConfigFile)).value).Err?) ==> r == Err(UnsupportedVersion)
    ensures r.Err? && r.error != NotFound && r.error != UnsupportedVersion ==> r.error == Aborted
    ensures r.Ok? ==>
      && read(Join(dir, DefaultConfigFile)).Some?
      && ReadVersioned(read(Join(dir, DefaultConfigFile)).value).Ok?
      && !r.value.closed && !r.value.modified
      && r.value.metafilePath == Join(dir, DefaultConfigFile)
      && r.value.reposDir == Join(dir, DefaultReposDir)
      && Some(BodyOf(r.value)) == decode(ReadVersioned(read(r.value.metafilePath).value).value)
  {
    var mf := Join(dir, DefaultConfigFile);
    if mf !in existing then Err(NotFound)
    else match read(mf)
      case None => Err(Aborted)
      case Some(content) =>
        match ReadVersioned(content)
        case Err(e) => Err(e)
        case Ok(text) =>
          match decode(text)
          case None => Err(Aborted)
          case Some(b) =>
            Ok(Repo(mf, Join(dir, DefaultReposDir), false, false,
                    b.name, b.currentBranch, b.branches, b.ignoredFiles, b.ignoredDirs, b.stagedFiles))
  }

  /** The files one argument stands for: itself if it is a file, its
      expansion if it is a directory, nothing otherwise. */
  function EntryFiles(e: Path, col: Collector, ignoredDirs: seq<string>): seq<Path>
  {
    match col.kind(e)
    case File => [e]
    case Directory => col.expand(e, ignoredDirs)
    case Neither => []
  }

  /** `filter_paths`: the files of every argument, argument by argument. */
  function FilterPaths(entries: seq<Path>, col: Collector, ignoredDirs: seq<string>): (files: seq<Path>)
    ensures forall p :: p in files <==> exists k :: 0 <= k < |entries| && p in EntryFiles(entries[k], col, ignoredDirs)
  {
    if entries == [] then []
    else
      var rest := FilterPaths(entries[1..], col, ignoredDirs);
      assert forall k :: 1 <= k < |entries| ==> entries[k] == entries[1..][k-1];
      EntryFiles(entries[0], col, ignoredDirs) + rest
  }

  /** The staging loop: each file, in order, is appended unless it is
      already staged or ignored. */
  function Admit(staged: seq<string>, files: seq<string>, ignored: seq<string>): (r: seq<string>)
    ensures |staged| <= |r| && r[..|staged|] == staged
    ensures forall x :: x in r <==> x in staged || (x in files && x !in ignored)
    ensures forall i :: |staged| <= i < |r| ==> r[i] !in staged && r[i] in files && r[i] !in ignored
    ensures NoDup(staged) ==> NoDup(r)
    ensures forall i, j :: |staged| <= i < j < |r| ==> FirstIndex(files, r[i]) < FirstIndex(files, r[j])
    decreases |files|
  {
    if files == [] then staged
    else
      var n := |files| - 1;
      var prev := Admit(staged, files[..n], ignored);
      var f := files[n];
      if f in prev || f in ignored then
        AdmitSkip(staged, files, ignored, prev);
        prev
      else
        AdmitAppend(staged, files, ignored, prev);
        prev + [f]
  }

  /** What `Admit` promises about its result `r`. */
  ghost predicate Admitted(staged: seq<string>, files: seq<string>, ignored: seq<string>, r: seq<string>)
  {
    && |staged| <= |r| && r[..|staged|] == staged
    && (forall x :: x in r <==> x in staged || (x in files && x !in ignored))
    && (forall i :: |staged| <= i < |r| ==> r[i] !in staged && r[i] in files && r[i] !in ignored)
    && (NoDup(staged) ==> NoDup(r))
    && (forall i, j :: |staged| <= i < j < |r| ==> FirstIndex(files, r[i]) < FirstIndex(files, r[j]))
  }

  /** A last file that is already staged or ignored adds nothing. */
  lemma AdmitSkip(staged: seq<string>, files: seq<string>, ignored: seq<string>, prev: seq<string>)
    requires |files| > 0
    requires Admitted(staged, files[..|files| - 1], ignored, prev)
    requires files[|files| - 1] in prev || files[|files| - 1] in ignored
    ensures Admitted(staged, files, ignored, prev)
  {
    var n := |files| - 1;
    assert files == files[..n] + [files[n]];
    assert forall x :: x in files[..n] ==> x in files;
    PrefixFirstIndexes(files, prev, |staged|);
  }

  /** A new last file goes to the end, after every file admitted before it. */
  lemma AdmitAppend(staged: seq<string>, files: seq<string>, ignored: seq<string>, prev: seq<string>)
    requires |files| > 0
    requires Admitted(staged, files[..|files| - 1], ignored, prev)
    requires files[|files| - 1] !in prev && files[|files| - 1] !in ignored
    ensures Admitted(staged, files, ignored, prev + [files[|files| - 1]])
  {
    var n := |files| - 1;
    var f := files[n];
    var r := prev + [f];
    assert files == files[..n] + [f];
    assert forall x :: x in files[..n] ==> x in files;
    assert f !in files[..n];
    AppendKeepsOrder(files, prev, r, |staged|);
    if NoDup(staged) {
      AppendKeepsNoDup(prev, f);
    }
    assert r[..|staged|] == prev[..|staged|];
    assert forall x :: x in r <==> x in prev || x == f;
  }

  /** Appending the last file, which occurs nowhere before, keeps the
      admitted files in order of first occurrence. */
  lemma AppendKeepsOrder(files: seq<string>, prev: seq<string>, r: seq<string>, from: nat)
    requires |files| > 0 && files[|files| - 1] !in files[..|files| - 1]
    requires r == prev + [files[|files| - 1]]
    requires from <= |prev|
    requires forall i :: from <= i < |prev| ==> prev[i] in files[..|files| - 1]
    requires forall i, j :: from <= i < j < |prev| ==>
      FirstIndex(files[..|files| - 1], prev[i]) < FirstIndex(files[..|files| - 1], prev[j])
    ensures forall i, j :: from <= i < j < |r| ==> FirstIndex(files, r[i]) < FirstIndex(files, r[j])
  {
    forall i, j | from <= i < j < |r|
      ensures FirstIndex(files, r[i]) < FirstIndex(files, r[j])
    {
      assert r[i] == prev[i];
      if j < |prev| {
        assert r[j] == prev[j];
      }
      OrderedInFiles(files, r[i], r[j]);
    }
  }

  /** Two files ordered by first occurrence among all but the last file, or
      followed by a last file that occurs nowhere before, stay ordered in the
      whole list. */
  lemma OrderedInFiles(files: seq<string>, x: string, y: string)
    requires |files| > 0 && x in files[..|files| - 1]
    requires || (y in files[..|files| - 1]
                 && FirstIndex(files[..|files| - 1], x) < FirstIndex(files[..|files| - 1], y))
             || (y == files[|files| - 1] && y !in files[..|files| - 1])
    ensures FirstIndex(files, x) < FirstIndex(files, y)
  {
    var n := |files| - 1;
    FirstIndexPrefix(files, n, x);
    if y in files[..n] {
      FirstIndexPrefix(files, n, y);
    } else {
      assert FirstIndex(files, y) == n;
    }
  }

  lemma AppendKeepsNoDup(prev: seq<string>, f: string)
    requires NoDup(prev) && f !in prev
    ensures NoDup(prev + [f])
  {
    var r := prev + [f];
    assert forall i :: 0 <= i < |prev| ==> r[i] == prev[i];
  }

  /** The first occurrences of elements taken from all but the last file
      are the same in the whole list. */
  lemma PrefixFirstIndexes(files: seq<string>, prev: seq<string>, from: nat)
    requires |files| > 0
    requires from <= |prev|
    requires forall i :: from <= i < |prev| ==> prev[i] in files[..|files|-1]
    ensures forall i :: from <= i < |prev| ==>
      FirstIndex(files, prev[i]) == FirstIndex(files[..|files|-1], prev[i]) < |files| - 1
  {
    forall i | from <= i < |prev|
      ensures FirstIndex(files, prev[i]) == FirstIndex(files[..|files|-1], prev[i]) < |files| - 1
    {
      var x := prev[i];
      assert x in files[..|files| - 1];
      FirstIndexPrefix(files, |files| - 1, x);
    }
  }

  /** `stage_files`: nothing happens on a closed descriptor; otherwise the
      expanded files not yet staged and not ignored are appended in the
      order of their first occurrence, and the descriptor is modified. */
  function StageFiles(r: Repo, entries: seq<Path>, col: Collector): (r': Repo)
    ensures r.closed ==> r' == r
    ensures !r.closed ==>
      var files := FilterPaths(entries, col, r.ignoredDirs);
      && r' == r.(stagedFiles := r'.stagedFiles, modified := true)
      && |r.stagedFiles| <= |r'.stagedFiles|
      && r'.stagedFiles[..|r.stagedFiles|] == r.stagedFiles
      && (forall x :: x in r'.stagedFiles <==> x in r.stagedFiles || (x in files && x !in r.ignoredFiles))
      && (forall i, j :: |r.stagedFiles| <= i < j < |r'.stagedFiles| ==>
            FirstIndex(files, r'.stagedFiles[i]) < FirstIndex(files, r'.stagedFiles[j]))
    ensures !r.closed ==> forall i :: |r.stagedFiles| <= i < |r'.stagedFiles| ==>
              r'.stagedFiles[i] !in r.stagedFiles && r'.stagedFiles[i] !in r.ignoredFiles
    ensures NoDup(r.stagedFiles) ==> NoDup(r'.stagedFiles)
    ensures StagingValid(r) ==> StagingValid(r')
  {
    if r.closed then r
    else
      var files := FilterPaths(entries, col, r.ignoredDirs);
      var staged := Admit(r.stagedFiles, files, r.ignoredFiles);
      assert forall i :: 0 <= i < |staged| ==> staged[i] in staged;
      r.(stagedFiles := staged, modified := true)
  }

  /** Keeps the elements of `s` that do not occur in `drop`. */
  function Retain(s: seq<string>, drop: seq<string>): (r: seq<string>)
    ensures forall x :: x in r <==> x in s && x !in drop
    ensures forall x :: x !in drop ==> multiset(r)[x] == multiset(s)[x]
    ensures Subseq(r, s)
    ensures NoDup(s) ==> NoDup(r)
  {
    if s == [] then []
    else
      var rest := Retain(s[1..], drop);
      if s[0] in drop then
        RetainDrop(s, drop, rest);
        rest
      else
        RetainKeep(s, drop, rest);
        [s[0]] + rest
  }

  /** What `Retain` promises about its result `r`. */
  ghost predicate Retained(s: seq<string>, drop: seq<string>, r: seq<string>)
  {
    && (forall x :: x in r <==> x in s && x !in drop)
    && (forall x :: x !in drop ==> multiset(r)[x] == multiset(s)[x])
    && Subseq(r, s)
    && (NoDup(s) ==> NoDup(r))
  }

  /** A dropped head leaves the retained tail as it is. */
  lemma RetainDrop(s: seq<string>, drop: seq<string>, rest: seq<string>)
    requires s != [] && s[0] in drop
    requires Retained(s[1..], drop, rest)
    ensures Retained(s, drop, rest)
  {
    assert s == [s[0]] + s[1..];
    assert multiset(s) == multiset{s[0]} + multiset(s[1..]);
    SubseqSkip(rest, s);
    assert forall x :: x in s[1..] ==> x in s;
    assert NoDup(s) ==> NoDup(s[1..]) by {
      if NoDup(s) {
        forall i, j | 0 <= i < j < |s[1..]| ensures s[1..][i] != s[1..][j] {
          assert s[1..][i] == s[i + 1] && s[1..][j] == s[j + 1];
        }
      }
    }
  }

  /** A kept head stays in front of the retained tail. */
  lemma RetainKeep(s: seq<string>, drop: seq<string>, rest: seq<string>)
    requires s != [] && s[0] !in drop
    requires Retained(s[1..], drop, rest)
    ensures Retained(s, drop, [s[0]] + rest)
  {
    var r := [s[0]] + rest;
    assert s == [s[0]] + s[1..];
    assert r[1..] == rest;
    assert multiset(r) == multiset{s[0]} + multiset(rest);
    assert multiset(s) == multiset{s[0]} + multiset(s[1..]);
    if NoDup(s) {
      assert NoDup(s[1..]) by {
        forall i, j | 0 <= i < j < |s[1..]| ensures s[1..][i] != s[1..][j] {
          assert s[1..][i] == s[i + 1] && s[1..][j] == s[j + 1];
        }
      }
      assert s[0] !in s[1..];
      forall i, j | 0 <= i < j < |r| ensures r[i] != r[j] {
        assert r[j] == rest[j - 1] && rest[j - 1] in rest;
        if i > 0 {
          assert r[i] == rest[i - 1];
        }
      }
    }
  }

  /** `unstage_files`: every staged path that the arguments expand to is
      dropped, the others keep their order; the closed flag is not checked. */
  function UnstageFiles(r: Repo, entries: seq<Path>, col: Collector): (r': Repo)
    ensures r' == r.(stagedFiles := r'.stagedFiles, modified := true)
    ensures forall x :: x in r'.stagedFiles <==>
              x in r.stagedFiles && x !in FilterPaths(entries, col, r.ignoredDirs)
    ensures forall x :: x !in FilterPaths(entries, col, r.ignoredDirs) ==>
              multiset(r'.stagedFiles)[x] == multiset(r.stagedFiles)[x]
    ensures Subseq(r'.stagedFiles, r.stagedFiles)
    ensures StagingValid(r) ==> StagingValid(r')
  {
    var staged := Retain(r.stagedFiles, FilterPaths(entries, col, r.ignoredDirs));
    assert forall i :: 0 <= i < |staged| ==> staged[i] in staged;
    r.(stagedFiles := staged, modified := true)
  }

  /** `unstage_all`: the staged list is emptied; the closed flag is not checked. */
  function UnstageAll(r: Repo): (r': Repo)
    ensures r' == r.(stagedFiles := [], modified := true)
    ensures StagingValid(r')
  {
    r.(stagedFiles := [], modified := true)
  }

  /** `format_branch_dir`: the snapshot directory name of a commit. */
  function SnapshotDir(branch: string, id: nat): (d: string)
    ensures branch + "-commit-" <= d
  {
    branch + "-commit-" + NatToString(id)
  }

  /** Different ids of one branch name different directories. */
  lemma SnapshotDirInjective(branch: string, a: nat, b: nat)
    requires SnapshotDir(branch, a) == SnapshotDir(branch, b)
    ensures a == b
  {
    var p := branch + "-commit-";
    assert NatToString(a) == SnapshotDir(branch, a)[|p|..];
    assert NatToString(b) == SnapshotDir(branch, b)[|p|..];
    NatToStringInjective(a, b);
  }

  /** The outcome of a commit: the result, the descriptor and the ledger in
      memory afterwards, and the snapshot directories of the branch. */
  datatype CommitOutcome = CommitOutcome(
    result: Result<nat>,
    repo: Repo,
    ledger: BranchConfig,
    snapshots: set<string>)

  /** `commit`. The ledger is the current branch's, freshly loaded; the
      snapshot directory `<branch>-commit-<count+1>` must not exist yet;
      copying stops at the first failure, leaving the new directory behind.
      On success the record, holding the staged list, is pushed to the ledger,
      the staged list is cleared, and the number of committed files returned. */
  function Commit(r: Repo, message: string, now: string, ledger: BranchConfig,
                  snapshots: set<string>, copyOk: Path -> bool): (o: CommitOutcome)
    ensures r.closed ==> o.result == Err(Closed)
    ensures !r.closed && r.stagedFiles == [] ==> o.result == Err(NothingStaged)
    ensures o.result.Ok? <==>
      && !r.closed && r.stagedFiles != []
      && SnapshotDir(ledger.name, |ledger.commits| + 1) !in snapshots
      && forall f :: f in r.stagedFiles ==> copyOk(f)
    ensures o.result.Err? ==> o.repo == r && o.ledger == ledger
    ensures o.result.Err? && o.result.error != CopyFailed ==> o.snapshots == snapshots
    ensures o.result.Err? && o.result.error == CopyFailed ==>
      o.snapshots == snapshots + {SnapshotDir(ledger.name, |ledger.commits| + 1)}
    ensures o.result.Ok? ==>
      && o.result.value == |r.stagedFiles|
      && o.repo == r.(stagedFiles := [], modified := true)
      && o.ledger == BranchLedger.PushCommit(ledger,
           CommitRecord.NewCommit(BranchLedger.CommitCount(ledger) + 1, message, r.stagedFiles, now))
      && o.snapshots == snapshots + {SnapshotDir(ledger.name, BranchLedger.CommitCount(ledger) + 1)}
  {
    if r.closed then CommitOutcome(Err(Closed), r, ledger, snapshots)
    else if r.stagedFiles == [] then CommitOutcome(Err(NothingStaged), r, ledger, snapshots)
    else
      var id := BranchLedger.CommitCount(ledger) + 1;
      var c := CommitRecord.NewCommit(id, message, r.stagedFiles, now);
      var dir := SnapshotDir(ledger.name, id);
      if dir in snapshots then CommitOutcome(Err(CreateDirFailed), r, ledger, snapshots)
      else if exists f :: f in r.stagedFiles && !copyOk(f) then
        CommitOutcome(Err(CopyFailed), r, ledger, snapshots + {dir})
      else
        CommitOutcome(Ok(|r.stagedFiles|), r.(stagedFiles := [], modified := true),
                      BranchLedger.PushCommit(ledger, c), snapshots + {dir})
  }

  datatype RemoveOutcome = RemoveOutcome(
    result: Result<()>,
    repo: Repo,
    ledger: BranchConfig,
    snapshots: set<string>)

  /** `remove_commit`: refused on a closed descriptor; the snapshot directory
      is removed first (an absent one is an error), then the ledger entry. If
      the ledger has no such commit the directory is gone all the same and
      the descriptor stays unmodified. */
  function RemoveCommit(r: Repo, id: nat, ledger: BranchConfig, snapshots: set<string>): (o: RemoveOutcome)
    ensures r.closed ==> o == RemoveOutcome(Err(Closed), r, ledger, snapshots)
    ensures !r.closed && SnapshotDir(ledger.name, id) !in snapshots ==>
      o == RemoveOutcome(Err(RemoveDirFailed), r, ledger, snapshots)
    ensures !r.closed && SnapshotDir(ledger.name, id) in snapshots ==>
      o.snapshots == snapshots - {SnapshotDir(ledger.name, id)}
    ensures o.result.Ok? <==>
      !r.closed && SnapshotDir(ledger.name, id) in snapshots && BranchLedger.HasId(ledger.commits, id)
    ensures o.result.Ok? ==>
      o.repo == r.(modified := true) && Ok(o.ledger) == BranchLedger.RemoveCommit(ledger, id)
    ensures o.result.Err? ==> o.repo == r && o.ledger == ledger
  {
    if r.closed then RemoveOutcome(Err(Closed), r, ledger, snapshots)
    else
      var dir := SnapshotDir(ledger.name, id);
      if dir !in snapshots then RemoveOutcome(Err(RemoveDirFailed), r, ledger, snapshots)
      else match BranchLedger.RemoveCommit(ledger, id)
        case Ok(l) => RemoveOutcome(Ok(()), r.(modified := true), l, snapshots - {dir})
        case Err(e) => RemoveOutcome(Err(e), r, ledger, snapshots - {dir})
  }

  datatype RestoreOutcome = RestoreOutcome(result: Result<()>, work: map<Path, string>)

  /** The copy loop of a restore: each snapshot file, in listing order, is
      copied to the same relative path of the working directory, stopping at
      the first failure. */
  function CopyAll(files: seq<Path>, content: Path -> string, copyOk: Path -> bool,
                   work: map<Path, string>): (o: RestoreOutcome)
    ensures o.result.Ok? <==> forall f :: f in files ==> copyOk(f)
    ensures o.result.Err? ==> o.result.error == CopyFailed
    ensures work.Keys <= o.work.Keys <= work.Keys + set f | f in files
    ensures forall p :: p in work && p !in files ==> p in o.work && o.work[p] == work[p]
    ensures o.result.Ok? ==> o.work.Keys == work.Keys + set f | f in files
    ensures o.result.Ok? ==> forall f :: f in files ==> o.work[f] == content(f)
    decreases |files|
  {
    if files == [] then RestoreOutcome(Ok(()), work)
    else if !copyOk(files[0]) then RestoreOutcome(Err(CopyFailed), work)
    else
      var o := CopyAll(files[1..], content, copyOk, work[files[0] := content(files[0])]);
      assert forall f :: f in files ==> f == files[0] || f in files[1..];
      o
  }

  /** `restore_commit`: refused on a closed descriptor; a commit without a
      snapshot directory makes the directory listing panic. Otherwise the
      snapshot is copied over the working directory, which only gains or
      overwrites files: files absent from the snapshot are left as they were.
      `files` is the listing of the snapshot, relative to its directory. */
  function RestoreCommit(r: Repo, id: nat, ledger: BranchConfig, snapshots: set<string>,
                         files: seq<Path>, content: Path -> string, copyOk: Path -> bool,
                         work: map<Path, string>): (o: RestoreOutcome)
    ensures r.closed ==> o == RestoreOutcome(Err(Closed), work)
    ensures !r.closed && SnapshotDir(ledger.name, id) !in snapshots ==> o == RestoreOutcome(Err(Aborted), work)
    ensures o.result.Ok? <==>
      !r.closed && SnapshotDir(ledger.name, id) in snapshots && forall f :: f in files ==> copyOk(f)
    ensures work.Keys <= o.work.Keys
    ensures forall p :: p in work && p !in files ==> p in o.work && o.work[p] == work[p]
    ensures o.result.Ok? ==> forall f :: f in files ==> f in o.work && o.work[f] == content(f)
  {
    if r.closed then RestoreOutcome(Err(Closed), work)
    else if SnapshotDir(ledger.name, id) !in snapshots then RestoreOutcome(Err(Aborted), work)
    else CopyAll(files, content, copyOk, work)
  }

  /** `get_branch`: refused on a closed descriptor; otherwise the ledger is
      loaded from `<reposDir>/<branch>/<branch>.conf`. */
  function GetBranch(r: Repo, branch: string, read: Path -> Option<string>,
                     decode: string -> Option<BranchLedger.LedgerBody>): (res: Result<BranchConfig>)
    ensures r.closed ==> res == Err(Closed)
    ensures !r.closed ==> res == BranchLedger.FromFile(BranchLedger.LedgerPath(r.reposDir, branch), read, decode)
  {
    if r.closed then Err(Closed)
    else BranchLedger.FromFile(BranchLedger.LedgerPath(r.reposDir, branch), read, decode)
  }

  /** Loads the ledgers of the given branches in order; the first failure
      is the result. */
  function LoadAll(root: Path, names: seq<string>, read: Path -> Option<string>,
                   decode: string -> Option<BranchLedger.LedgerBody>): (res: Result<seq<BranchConfig>>)
    ensures res.Ok? <==> forall i :: 0 <= i < |names| ==>
              BranchLedger.FromFile(BranchLedger.LedgerPath(root, names[i]), read, decode).Ok?
    ensures res.Ok? ==> |res.value| == |names| && forall i :: 0 <= i < |names| ==>
              BranchLedger.FromFile(BranchLedger.LedgerPath(root, names[i]), read, decode) == Ok(res.value[i])
  {
    if names == [] then Ok([])
    else match BranchLedger.FromFile(BranchLedger.LedgerPath(root, names[0]), read, decode)
      case Err(e) => Err(e)
      case Ok(l) =>
        match LoadAll(root, names[1..], read, decode)
        case Err(e) =>
          Err(e)
        case Ok(ls) =>
          assert forall i :: 1 <= i < |names| ==> names[i] == names[1..][i-1];
          Ok([l] + ls)
  }

  /** `get_branches`: refused on a closed descriptor; otherwise one ledger per
      branch name, in the order of the names, or the first load failure. */
  function GetBranches(r: Repo, read: Path -> Option<string>,
                       decode: string -> Option<BranchLedger.LedgerBody>): (res: Result<seq<BranchConfig>>)
    ensures r.closed ==> res == Err(Closed)
    ensures res.Ok? ==> |res.value| == |r.branches| && forall i :: 0 <= i < |r.branches| ==>
              GetBranch(r, r.branches[i], read, decode) == Ok(res.value[i])
    ensures !r.closed && res.Err? ==> exists i :: 0 <= i < |r.branches| && GetBranch(r, r.branches[i], read, decode).Err?
  {
    if r.closed then Err(Closed) else LoadAll(r.reposDir, r.branches, read, decode)
  }

  datatype RepoClosing = RepoClosing(repo: Repo, effects: seq<Effect>)

  /** The ledger file a fresh, empty ledger writes when it is closed. */
  function EmptyLedgerWrite(root: Path, branch: string, encode: BranchLedger.LedgerBody -> string): (e: Effect)
    ensures [e] == BranchLedger.Close(BranchLedger.New(branch, root), encode).effects
  {
    WriteFile(BranchLedger.LedgerPath(root, branch), Serialize(encode(BranchLedger.LedgerBody(branch, 0, []))))
  }

  /** For each branch whose directory is missing: create it and write a
      fresh, empty ledger into it (the new ledger is closed as it goes out of
      scope). `existing` grows as directories are created. */
  function BranchDirs(root: Path, branches: seq<string>, existing: set<Path>,
                      encode: BranchLedger.LedgerBody -> string): (effects: seq<Effect>)
    ensures forall e :: e in effects && e.CreateDir? ==> e.path !in existing
    ensures forall e :: e in effects && e.CreateDir? ==> exists b :: b in branches && e.path == Join(root, b)
    ensures forall b :: b in branches && Join(root, b) !in existing ==> CreateDir(Join(root, b)) in effects
    ensures forall e :: e in effects && e.WriteFile? ==>
      exists b :: b in branches && Join(root, b) !in existing && e == EmptyLedgerWrite(root, b, encode)
    decreases |branches|
  {
    if branches == [] then []
    else
      var dir := Join(root, branches[0]);
      if dir in existing then
        var tail := BranchDirs(root, branches[1..], existing, encode);
        BranchDirsSkip(root, branches, existing, encode, tail);
        tail
      else
        var tail := BranchDirs(root, branches[1..], existing + {dir}, encode);
        BranchDirsCreate(root, branches, existing, EmptyLedgerWrite(root, branches[0], encode), tail);
        BranchDirsWrite(root, branches, existing, encode, tail);
        [CreateDir(dir), EmptyLedgerWrite(root, branches[0], encode)] + tail
  }

  /** The directory half of what `BranchDirs` promises about `effects`. */
  predicate DirsFresh(root: Path, branches: seq<string>, existing: set<Path>, effects: seq<Effect>)
  {
    && (forall e :: e in effects && e.CreateDir? ==> e.path !in existing)
    && (forall e :: e in effects && e.CreateDir? ==> exists b :: b in branches && e.path == Join(root, b))
    && (forall b :: b in branches && Join(root, b) !in existing ==> CreateDir(Join(root, b)) in effects)
  }

  /** The ledger-file half of what `BranchDirs` promises about `effects`. */
  predicate WritesFresh(root: Path, branches: seq<string>, existing: set<Path>,
                        encode: BranchLedger.LedgerBody -> string, effects: seq<Effect>)
  {
    forall e :: e in effects && e.WriteFile? ==>
      exists b :: b in branches && Join(root, b) !in existing && e == EmptyLedgerWrite(root, b, encode)
  }

  /** A branch whose directory exists adds nothing. */
  lemma BranchDirsSkip(root: Path, branches: seq<string>, existing: set<Path>,
                       encode: BranchLedger.LedgerBody -> string, tail: seq<Effect>)
    requires branches != [] && Join(root, branches[0]) in existing
    requires DirsFresh(root, branches[1..], existing, tail)
    requires WritesFresh(root, branches[1..], existing, encode, tail)
    ensures DirsFresh(root, branches, existing, tail)
    ensures WritesFresh(root, branches, existing, encode, tail)
  {
    assert forall x :: x in branches ==> x == branches[0] || x in branches[1..];
    assert forall x :: x in branches[1..] ==> x in branches;
  }

  /** Creating a missing directory in front keeps the directory half. */
  lemma BranchDirsCreate(root: Path, branches: seq<string>, existing: set<Path>, w: Effect, tail: seq<Effect>)
    requires branches != [] && Join(root, branches[0]) !in existing
    requires w.WriteFile?
    requires DirsFresh(root, branches[1..], existing + {Join(root, branches[0])}, tail)
    ensures DirsFresh(root, branches, existing, [CreateDir(Join(root, branches[0])), w] + tail)
  {
    var dir := Join(root, branches[0]);
    assert forall x :: x in branches ==> x == branches[0] || x in branches[1..];
    assert forall x :: x in branches[1..] ==> x in branches;
    assert forall e :: e in [CreateDir(dir), w] + tail ==> e == CreateDir(dir) || e == w || e in tail;
    assert branches[0] in branches;
  }

  /** Writing the new branch's empty ledger in front keeps the file half. */
  lemma BranchDirsWrite(root: Path, branches: seq<string>, existing: set<Path>,
                        encode: BranchLedger.LedgerBody -> string, tail: seq<Effect>)
    requires branches != [] && Join(root, branches[0]) !in existing
    requires WritesFresh(root, branches[1..], existing + {Join(root, branches[0])}, encode, tail)
    ensures WritesFresh(root, branches, existing, encode,
                        [CreateDir(Join(root, branches[0])), EmptyLedgerWrite(root, branches[0], encode)] + tail)
  {
    var w := EmptyLedgerWrite(root, branches[0], encode);
    var effects := [CreateDir(Join(root, branches[0])), w] + tail;
    assert forall e :: e in effects ==> e == CreateDir(Join(root, branches[0])) || e == w || e in tail;
    assert forall x :: x in branches[1..] ==> x in branches;
    assert branches[0] in branches;
  }

  /** The first branch to claim a missing directory gets a fresh ledger file
      in it. */
  lemma {:induction false} BranchDirsWriteLedgers(root: Path, branches: seq<string>, existing: set<Path>,
                                                  encode: BranchLedger.LedgerBody -> string, i: nat)
    requires i < |branches|
    requires Join(root, branches[i]) !in existing
    requires forall j :: 0 <= j < i ==> Join(root, branches[j]) != Join(root, branches[i])
    ensures EmptyLedgerWrite(root, branches[i], encode) in BranchDirs(root, branches, existing, encode)
    decreases |branches|
  {
    var dir := Join(root, branches[0]);
    if i > 0 {
      var ex := if dir in existing then existing else existing + {dir};
      BranchDirsWriteLedgers(root, branches[1..], ex, encode, i - 1);
    }
  }

  /** Every ledger file is written right after the creation of its branch
      directory; `b` is the branch it belongs to. */
  lemma {:induction false} BranchDirsWriteAfterCreate(root: Path, branches: seq<string>, existing: set<Path>,
                                                      encode: BranchLedger.LedgerBody -> string, k: nat)
    returns (b: string)
    requires k < |BranchDirs(root, branches, existing, encode)|
    requires BranchDirs(root, branches, existing, encode)[k].WriteFile?
    ensures b in branches && Join(root, b) !in existing
    ensures k > 0
    ensures BranchDirs(root, branches, existing, encode)[k - 1] == CreateDir(Join(root, b))
    ensures BranchDirs(root, branches, existing, encode)[k] == EmptyLedgerWrite(root, b, encode)
    decreases |branches|, 1
  {
    if Join(root, branches[0]) in existing {
      b := SkippedWriteAfterCreate(root, branches, existing, encode, k);
    } else {
      b := CreatedWriteAfterCreate(root, branches, existing, encode, k);
    }
  }

  /** `BranchDirsWriteAfterCreate` when the first branch's directory exists. */
  lemma {:induction false} SkippedWriteAfterCreate(root: Path, branches: seq<string>, existing: set<Path>,
                                                   encode: BranchLedger.LedgerBody -> string, k: nat)
    returns (b: string)
    requires branches != [] && Join(root, branches[0]) in existing
    requires k < |BranchDirs(root, branches, existing, encode)|
    requires BranchDirs(root, branches, existing, encode)[k].WriteFile?
    ensures b in branches && Join(root, b) !in existing
    ensures k > 0
    ensures BranchDirs(root, branches, existing, encode)[k - 1] == CreateDir(Join(root, b))
    ensures BranchDirs(root, branches, existing, encode)[k] == EmptyLedgerWrite(root, b, encode)
    decreases |branches|, 0
  {
    b := BranchDirsWriteAfterCreate(root, branches[1..], existing, encode, k);
    assert b in branches;
  }

  /** `BranchDirsWriteAfterCreate` when the first branch's directory is
      missing. */
  lemma {:induction false} CreatedWriteAfterCreate(root: Path, branches: seq<string>, existing: set<Path>,
                                                   encode: BranchLedger.LedgerBody -> string, k: nat)
    returns (b: string)
    requires branches != [] && Join(root, branches[0]) !in existing
    requires k < |BranchDirs(root, branches, existing, encode)|
    requires BranchDirs(root, branches, existing, encode)[k].WriteFile?
    ensures b in branches && Join(root, b) !in existing
    ensures k > 0
    ensures BranchDirs(root, branches, existing, encode)[k - 1] == CreateDir(Join(root, b))
    ensures BranchDirs(root, branches, existing, encode)[k] == EmptyLedgerWrite(root, b, encode)
    decreases |branches|, 0
  {
    var dir := Join(root, branches[0]);
    var tail := BranchDirs(root, branches[1..], existing + {dir}, encode);
    var effects := [CreateDir(dir), EmptyLedgerWrite(root, branches[0], encode)] + tail;
    assert BranchDirs(root, branches, existing, encode) == effects;
    if k >= 2 {
      b := BranchDirsWriteAfterCreate(root, branches[1..], existing + {dir}, encode, k - 2);
      assert b in branches;
      assert effects[k - 1] == tail[k - 3];
    } else {
      b := branches[0];
    }
  }


  /** `close`: a closed or unmodified descriptor writes nothing. Otherwise
      the descriptor file is written (version line first), the repository
      directory is created if missing, every branch without a directory gets
      one holding a fresh empty ledger, and the descriptor becomes closed. */
  function Close(r: Repo, existing: set<Path>, encodeRepo: RepoBody -> string,
                 encodeLedger: BranchLedger.LedgerBody -> string): (c: RepoClosing)
    ensures r.closed || !r.modified ==> c == RepoClosing(r, [])
    ensures !r.closed && r.modified ==>
      && c.repo == r.(closed := true)
      && |c.effects| > 0
      && c.effects[0] == WriteFile(r.metafilePath, Serialize(encodeRepo(BodyOf(r))))
      && (r.reposDir !in existing ==> CreateDir(r.reposDir) in c.effects)
    ensures forall e :: e in c.effects && e.CreateDir? ==> e.path !in existing
    ensures forall e :: e in c.effects && e.CreateDir? ==>
      e.path == r.reposDir || exists b :: b in r.branches && e.path == Join(r.reposDir, b)
    ensures forall k :: 0 < k < |c.effects| && c.effects[k].WriteFile? ==>
      exists b :: b in r.branches && Join(r.reposDir, b) !in existing
                  && c.effects[k] == EmptyLedgerWrite(r.reposDir, b, encodeLedger)
  {
    if r.closed || !r.modified then RepoClosing(r, [])
    else
      var meta := WriteFile(r.metafilePath, Serialize(encodeRepo(BodyOf(r))));
      var rootDir := if r.reposDir in existing then [] else [CreateDir(r.reposDir)];
      var branchDirs := BranchDirs(r.reposDir, r.branches, existing + {r.reposDir}, encodeLedger);
      RepoClosing(r.(closed := true), [meta] + rootDir + branchDirs)
  }
}

=== FILE: repo_props.dfy ===
/** Properties that relate several operations of the repository: the
    snapshot directories stay in step with the ledger, ids are derived from
    the commit count and can be reused after a removal, staging keeps its
    invariant over any sequence of calls, and finalising is idempotent and
    writes files that load back. */
module RepositoryProps {

  import opened Base
  import opened Paths
  import opened Text
  import opened Persist
  import CommitRecord
  import BranchLedger
  import opened Repository

  /** Every commit of the ledger has its snapshot directory. */
  predicate SnapshotsCover(ledger: BranchConfig, snapshots: set<string>)
  {
    forall i :: 0 <= i < |ledger.commits| ==> SnapshotDir(ledger.name, ledger.commits[i].id) in snapshots
  }

  /** A successful commit appends one record whose id is the prior count plus
      one and whose file list is the prior staged list, clears the staged
      list and reports how many files it committed. */
  lemma CommitAppendsRecord(r: Repo, message: string, now: string, ledger: BranchConfig,
                            snapshots: set<string>, copyOk: Path -> bool)
    requires !ledger.closed
    requires Commit(r, message, now, ledger, snapshots, copyOk).result.Ok?
    ensures var o := Commit(r, message, now, ledger, snapshots, copyOk);
      && o.ledger.commits == ledger.commits
           + [CommitRecord.Commit(|ledger.commits| + 1, message, now, r.stagedFiles)]
      && o.ledger.currentCommit == |ledger.commits| + 1
      && o.repo.stagedFiles == []
      && o.result.value == |r.stagedFiles|
      && SnapshotDir(ledger.name, |ledger.commits| + 1) in o.snapshots
  {
    var o := Commit(r, message, now, ledger, snapshots, copyOk);
    var c := CommitRecord.NewCommit(|ledger.commits| + 1, message, r.stagedFiles, now);
    assert o.ledger == BranchLedger.PushCommit(ledger, c);
    assert o.ledger.commits == o.ledger.commits[..|ledger.commits|] + [o.ledger.commits[|ledger.commits|]];
  }

  /** While every commit has its snapshot directory, a commit can only
      succeed with an id that the ledger does not hold yet: ids stay unique
      and the directories stay in step. */
  lemma CommitKeepsLedgerSound(r: Repo, message: string, now: string, ledger: BranchConfig,
                               snapshots: set<string>, copyOk: Path -> bool)
    requires !ledger.closed
    requires BranchLedger.UniqueIds(ledger.commits)
    requires SnapshotsCover(ledger, snapshots)
    requires Commit(r, message, now, ledger, snapshots, copyOk).result.Ok?
    ensures var o := Commit(r, message, now, ledger, snapshots, copyOk);
      BranchLedger.UniqueIds(o.ledger.commits) && SnapshotsCover(o.ledger, o.snapshots)
  {
    var o := Commit(r, message, now, ledger, snapshots, copyOk);
    var n := |ledger.commits|;
    CommitAppendsRecord(r, message, now, ledger, snapshots, copyOk);
    assert SnapshotDir(ledger.name, n + 1) !in snapshots;
    assert forall i :: 0 <= i < n ==> o.ledger.commits[i] == ledger.commits[i];
  }

  /** A removal on an open descriptor keeps every remaining commit's
      directory: only the removed id's directory disappears. When it succeeds
      on a ledger without repeated ids, the id can no longer be found, ids
      stay unique, and the count drops by exactly one. */
  lemma RemoveKeepsLedgerSound(r: Repo, id: nat, ledger: BranchConfig, snapshots: set<string>)
    requires BranchLedger.UniqueIds(ledger.commits)
    requires SnapshotsCover(ledger, snapshots)
    ensures var o := RemoveCommit(r, id, ledger, snapshots);
      SnapshotsCover(o.ledger, o.snapshots)
    ensures var o := RemoveCommit(r, id, ledger, snapshots);
      o.result.Ok? ==>
        && BranchLedger.UniqueIds(o.ledger.commits)
        && BranchLedger.GetCommit(o.ledger, id).None?
        && BranchLedger.CommitCount(o.ledger) == BranchLedger.CommitCount(ledger) - 1
        && BranchLedger.Valid(o.ledger)
  {
    var o := RemoveCommit(r, id, ledger, snapshots);
    var dir := SnapshotDir(ledger.name, id);
    if !r.closed && dir in snapshots {
      if o.result.Ok? {
        BranchLedger.RemoveThenGet(ledger, id);
        var i := BranchLedger.FindCommit(ledger.commits, id).value;
        forall k | 0 <= k < |o.ledger.commits|
          ensures SnapshotDir(o.ledger.name, o.ledger.commits[k].id) in o.snapshots
        {
          var c := o.ledger.commits[k];
          assert c == (if k < i then ledger.commits[k] else ledger.commits[k + 1]);
          assert SnapshotDir(ledger.name, c.id) in snapshots;
          if SnapshotDir(ledger.name, c.id) == dir {
            SnapshotDirInjective(ledger.name, c.id, id);
          }
        }
      } else {
        forall k | 0 <= k < |ledger.commits|
          ensures SnapshotDir(ledger.name, ledger.commits[k].id) in o.snapshots
        {
          if SnapshotDir(ledger.name, ledger.commits[k].id) == dir {
            SnapshotDirInjective(ledger.name, ledger.commits[k].id, id);
          }
        }
      }
    }
  }

  /** Ids are the count plus one, not a counter: in a history numbered
      1..n, removing any commit but the last makes the next computed id n,
      which the last commit already carries. */
  lemma IdReuseAfterRemove(ledger: BranchConfig, k: nat)
    requires forall i :: 0 <= i < |ledger.commits| ==> ledger.commits[i].id == i + 1
    requires 1 <= k < |ledger.commits|
    ensures BranchLedger.RemoveCommit(ledger, k).Ok?
    ensures var l := BranchLedger.RemoveCommit(ledger, k).value;
      && BranchLedger.CommitCount(l) + 1 == |ledger.commits|
      && BranchLedger.HasId(l.commits, BranchLedger.CommitCount(l) + 1)
  {
    assert ledger.commits[k - 1].id == k;
    var l := BranchLedger.RemoveCommit(ledger, k).value;
    var n := |ledger.commits|;
    assert BranchLedger.FindCommit(ledger.commits, k).value == k - 1;
    assert l.commits[n - 2] == ledger.commits[n - 1];
  }

  /** When the next id is already held by a commit whose directory exists,
      the commit fails before anything in memory changes. */
  lemma CollisionBlocksCommit(r: Repo, message: string, now: string, ledger: BranchConfig,
                              snapshots: set<string>, copyOk: Path -> bool)
    requires SnapshotsCover(ledger, snapshots)
    requires BranchLedger.HasId(ledger.commits, BranchLedger.CommitCount(ledger) + 1)
    ensures var o := Commit(r, message, now, ledger, snapshots, copyOk);
      && o.result.Err?
      && o.repo == r && o.ledger == ledger && o.snapshots == snapshots
      && (!r.closed && r.stagedFiles != [] ==> o.result.error == CreateDirFailed)
  {
  }

  /** The quirk end to end: in a history numbered 1..n with all its
      directories, removing a commit other than the last succeeds, and the
      next commit then fails on the existing directory of commit n, leaving
      the staged list and the ledger as they were. */
  lemma RemoveThenCommitCollides(r: Repo, k: nat, message: string, now: string, ledger: BranchConfig,
                                 snapshots: set<string>, copyOk: Path -> bool)
    requires !r.closed && r.stagedFiles != []
    requires forall i :: 0 <= i < |ledger.commits| ==> ledger.commits[i].id == i + 1
    requires SnapshotsCover(ledger, snapshots)
    requires 1 <= k < |ledger.commits|
    ensures var o1 := RemoveCommit(r, k, ledger, snapshots);
      && o1.result.Ok?
      && var o2 := Commit(o1.repo, message, now, o1.ledger, o1.snapshots, copyOk);
      && o2.result == Err(CreateDirFailed)
      && o2.repo.stagedFiles == r.stagedFiles
      && o2.ledger == o1.ledger
  {
    var o1 := RemoveCommit(r, k, ledger, snapshots);
    assert ledger.commits[k - 1].id == k;
    assert SnapshotDir(ledger.name, k) in snapshots;
    IdReuseAfterRemove(ledger, k);
    assert BranchLedger.UniqueIds(ledger.commits);
    RemoveKeepsLedgerSound(r, k, ledger, snapshots);
    CollisionBlocksCommit(o1.repo, message, now, o1.ledger, o1.snapshots, copyOk);
  }

  /** The smallest instance: ledger [1, 2] of branch "master", remove 1,
      and the next id is 2 again, whose directory still exists. */
  lemma RemoveFirstOfTwo(r: Repo, c1: CommitRecord.Commit, c2: CommitRecord.Commit, message: string,
                         now: string, copyOk: Path -> bool)
    requires !r.closed && r.stagedFiles != []
    requires c1.id == 1 && c2.id == 2
    ensures var ledger := BranchLedger.BranchConfig(false, false, "", "master", 2, [c1, c2]);
      var snapshots := {"master-commit-1", "master-commit-2"};
      var o1 := RemoveCommit(r, 1, ledger, snapshots);
      && o1.result.Ok? && o1.ledger.commits == [c2] && o1.snapshots == {"master-commit-2"}
      && BranchLedger.CommitCount(o1.ledger) + 1 == 2
      && Commit(o1.repo, message, now, o1.ledger, o1.snapshots, copyOk).result == Err(CreateDirFailed)
  {
    var ledger := BranchLedger.BranchConfig(false, false, "", "master", 2, [c1, c2]);
    var snapshots := {"master-commit-1", "master-commit-2"};
    assert SnapshotDir("master", 1) == "master-commit-1";
    assert SnapshotDir("master", 2) == "master-commit-2";
    RemoveThenCommitCollides(r, 1, message, now, ledger, snapshots, copyOk);
    assert [c1, c2][..0] + [c1, c2][1..] == [c2];
  }

  /** Initialising a fresh directory yields the single branch "master" with
      nothing staged, and only the descriptor file and the snapshot directory
      ignored. */
  lemma InitFresh()
    ensures Repository.New("demo", "", {}).Ok?
    ensures var r0 := Repository.New("demo", "", {}).value;
      && r0.branches == ["master"] && r0.currentBranch == "master"
      && r0.stagedFiles == [] && !r0.closed
      && r0.ignoredFiles == ["./.lostcontrol.conf"]
      && r0.reposDir == ".lostcontrol"
  {
    assert Join("", DefaultConfigFile) == DefaultConfigFile;
    assert Join("", DefaultReposDir) == DefaultReposDir;
    assert "./" + DefaultConfigFile == "./.lostcontrol.conf";
  }

  /** Staging one plain file on an open repository with nothing staged stages
      exactly that file, unless it is ignored. */
  lemma StageOne(r: Repo, f: Path, col: Collector)
    requires !r.closed && r.stagedFiles == []
    requires f !in r.ignoredFiles && col.kind(f) == File
    ensures StageFiles(r, [f], col).stagedFiles == [f]
  {
    assert EntryFiles(f, col, r.ignoredDirs) == [f];
    assert FilterPaths([f], col, r.ignoredDirs) == [f] + FilterPaths([], col, r.ignoredDirs);
    assert Admit([], [f], r.ignoredFiles) == Admit([], [], r.ignoredFiles) + [f];
  }

  /** Committing the single staged file "a.txt" on an empty "master" ledger
      records commit 1 holding ["a.txt"] in directory "master-commit-1";
      removing commit 1 then empties the ledger, resets the current commit to
      0 and removes the directory. */
  lemma CommitThenRemove(r: Repo, ledger: BranchConfig, now: string)
    requires !r.closed && r.stagedFiles == ["a.txt"]
    requires !ledger.closed && ledger.name == "master" && ledger.commits == []
    ensures var o := Commit(r, "first", now, ledger, {}, f => true);
      var o2 := RemoveCommit(o.repo, 1, o.ledger, o.snapshots);
      && o.result == Ok(1)
      && o.ledger.commits == [CommitRecord.Commit(1, "first", now, ["a.txt"])]
      && o.snapshots == {"master-commit-1"}
      && o.repo.stagedFiles == []
      && o2.result.Ok?
      && o2.ledger.commits == [] && o2.ledger.currentCommit == 0
      && o2.snapshots == {}
  {
    assert SnapshotDir("master", 1) == "master-commit-1";
    var o := Commit(r, "first", now, ledger, {}, f => true);
    assert o.ledger.commits == [CommitRecord.Commit(1, "first", now, ["a.txt"])];
    assert BranchLedger.FindCommit(o.ledger.commits, 1) == Some(0);
  }

  /** The staging calls a user can issue. */
  datatype StagingOp = Stage(entries: seq<Path>) | Unstage(entries: seq<Path>) | UnstageEverything

  /** One staging call. */
  function Step(r: Repo, op: StagingOp, col: Collector): (r': Repo)
    ensures StagingValid(r) ==> StagingValid(r')
  {
    match op
    case Stage(es) => StageFiles(r, es, col)
    case Unstage(es) => UnstageFiles(r, es, col)
    case UnstageEverything => UnstageAll(r)
  }

  function ApplyStaging(r: Repo, ops: seq<StagingOp>, col: Collector): Repo
    decreases |ops|
  {
    if ops == [] then r else ApplyStaging(Step(r, ops[0], col), ops[1..], col)
  }

  /** Over any sequence of stage and unstage calls, the staged list stays
      free of duplicates and of ignored files. */
  lemma {:induction false} StagingKeepsValid(r: Repo, ops: seq<StagingOp>, col: Collector)
    requires StagingValid(r)
    ensures StagingValid(ApplyStaging(r, ops, col))
    decreases |ops|
  {
    if ops != [] {
      StagingKeepsValid(Step(r, ops[0], col), ops[1..], col);
    }
  }

  /** Finalising twice writes at most once: the second call finds the
      descriptor closed and does nothing, whatever the disk holds by then. */
  lemma CloseIdempotent(r: Repo, existing: set<Path>, later: set<Path>,
                        encodeRepo: RepoBody -> string, encodeLedger: BranchLedger.LedgerBody -> string)
    ensures var c := Repository.Close(r, existing, encodeRepo, encodeLedger);
      Repository.Close(c.repo, later, encodeRepo, encodeLedger) == RepoClosing(c.repo, [])
    ensures Repository.Close(r, existing, encodeRepo, encodeLedger).repo.closed <==> r.closed || r.modified
  {
  }

  /** The descriptor file written by `close` loads back as the same
      descriptor, unmodified, provided the YAML encoder and decoder agree on
      its body and the encoded body is plain text. */
  lemma ClosedRepoReloads(r: Repo, dir: Path, existing: set<Path>, later: set<Path>,
                          encodeRepo: RepoBody -> string, encodeLedger: BranchLedger.LedgerBody -> string,
                          read: Path -> Option<string>, decode: string -> Option<RepoBody>)
    requires !r.closed && r.modified
    requires r.metafilePath == Join(dir, DefaultConfigFile) && r.reposDir == Join(dir, DefaultReposDir)
    requires decode(encodeRepo(BodyOf(r))) == Some(BodyOf(r))
    requires PlainText(encodeRepo(BodyOf(r)))
    requires r.metafilePath in later
    requires read(r.metafilePath) == Some(Repository.Close(r, existing, encodeRepo, encodeLedger).effects[0].content)
    ensures Repository.FromFile(dir, later, read, decode) == Ok(r.(modified := false))
  {
    SerializeRoundTrip(encodeRepo(BodyOf(r)));
  }

  /** Finalising gives every branch whose directory is missing (the first
      one to name it) a directory and a fresh empty ledger file. */
  lemma CloseCreatesBranchLedgers(r: Repo, existing: set<Path>, encodeRepo: RepoBody -> string,
                                  encodeLedger: BranchLedger.LedgerBody -> string, i: nat)
    requires !r.closed && r.modified
    requires i < |r.branches|
    requires Join(r.reposDir, r.branches[i]) !in existing + {r.reposDir}
    requires forall j :: 0 <= j < i ==> Join(r.reposDir, r.branches[j]) != Join(r.reposDir, r.branches[i])
    ensures var effects := Repository.Close(r, existing, encodeRepo, encodeLedger).effects;
      && CreateDir(Join(r.reposDir, r.branches[i])) in effects
      && EmptyLedgerWrite(r.reposDir, r.branches[i], encodeLedger) in effects
  {
    BranchDirsWriteLedgers(r.reposDir, r.branches, existing + {r.reposDir}, encodeLedger, i);
    assert r.branches[i] in r.branches;
  }

  /** A write past the head and the creation of the repository directory
      sits at position `j` of the branch effects, and so does its predecessor. */
  lemma TailIndex(head: Effect, rootDir: seq<Effect>, dirs: seq<Effect>, k: nat) returns (j: nat)
    requires forall e :: e in rootDir ==> e.CreateDir?
    requires 0 < k < |[head] + rootDir + dirs|
    requires ([head] + rootDir + dirs)[k].WriteFile?
    ensures j < |dirs| && j == k - 1 - |rootDir|
    ensures ([head] + rootDir + dirs)[k] == dirs[j]
    ensures j > 0 ==> ([head] + rootDir + dirs)[k - 1] == dirs[j - 1]
  {
    assert forall i :: 1 <= i <= |rootDir| ==> ([head] + rootDir + dirs)[i] == rootDir[i - 1] && rootDir[i - 1] in rootDir;
    j := k - 1 - |rootDir|;
  }

  /** After the descriptor file, every ledger file `close` writes comes right
      after the creation of its branch directory, which was missing; `b` is
      the branch it belongs to. */
  lemma CloseWritesAfterCreate(r: Repo, existing: set<Path>, encodeRepo: RepoBody -> string,
                               encodeLedger: BranchLedger.LedgerBody -> string, k: nat)
    returns (b: string)
    requires 0 < k < |Repository.Close(r, existing, encodeRepo, encodeLedger).effects|
    requires Repository.Close(r, existing, encodeRepo, encodeLedger).effects[k].WriteFile?
    ensures b in r.branches && Join(r.reposDir, b) !in existing
    ensures Repository.Close(r, existing, encodeRepo, encodeLedger).effects[k - 1] == CreateDir(Join(r.reposDir, b))
    ensures Repository.Close(r, existing, encodeRepo, encodeLedger).effects[k] == EmptyLedgerWrite(r.reposDir, b, encodeLedger)
  {
    var effects := Repository.Close(r, existing, encodeRepo, encodeLedger).effects;
    var rootDir := if r.reposDir in existing then [] else [CreateDir(r.reposDir)];
    var dirs := BranchDirs(r.reposDir, r.branches, existing + {r.reposDir}, encodeLedger);
    assert effects == [effects[0]] + rootDir + dirs;
    var j := TailIndex(effects[0], rootDir, dirs, k);
    b := BranchDirsWriteAfterCreate(r.reposDir, r.branches, existing + {r.reposDir}, encodeLedger, j);
  }

  /** The empty ledger `close` writes for a new branch is what `get_branch`
      then loads: same path, an empty history, current commit 0. */
  lemma EmptyLedgerFoundByGetBranch(r: Repo, branch: string, encode: BranchLedger.LedgerBody -> string,
                                    decode: string -> Option<BranchLedger.LedgerBody>,
                                    read: Path -> Option<string>)
    requires !r.closed
    requires decode(encode(BranchLedger.LedgerBody(branch, 0, []))) == Some(BranchLedger.LedgerBody(branch, 0, []))
    requires PlainText(encode(BranchLedger.LedgerBody(branch, 0, [])))
    requires read(BranchLedger.LedgerPath(r.reposDir, branch)) == Some(EmptyLedgerWrite(r.reposDir, branch, encode).content)
    ensures GetBranch(r, branch, read, decode) == Ok(BranchLedger.New(branch, r.reposDir).(modified := false))
  {
    var b := BranchLedger.New(branch, r.reposDir);
    BranchLedger.ClosedLedgerReloads(b, encode, decode, read);
  }
}

=== FILE: text.dfy ===
/** Line splitting as Rust's `BufRead::lines` performs it, which is how both
    persisted configuration files are read back. */
module Text {

  import opened Base

  /** A line as `lines()` yields it once its "\n" is gone: one "\r" right
      before the "\n" is removed as well. */
  function DropCR(l: string): (r: string)
    ensures r == l || (l == r + "\r")
  {
    if |l| > 0 && l[|l|-1] == '\r' then l[..|l|-1] else l
  }

  /** The lines of `s`. A final line without "\n" is kept whole (including a
      trailing "\r"); an empty input has no lines at all. */
  function Lines(s: string): (ls: seq<string>)
    ensures |ls| == 0 <==> s == []
    decreases |s|
  {
    if s == [] then []
    else
      var i := FirstIndex(s, '\n');
      if i == |s| then [s]
      else [DropCR(s[..i])] + Lines(s[i+1..])
  }

  /** The first line, or "" when there is none: the source initialises the
      version string to "" and only overwrites it for line 0. */
  function FirstLine(s: string): string
  {
    var ls := Lines(s);
    if ls == [] then "" else ls[0]
  }

  /** Every line terminated by "\n", as the source rebuilds the body. */
  function JoinLines(ls: seq<string>): (s: string)
    ensures ls == [] <==> s == []
  {
    if ls == [] then [] else ls[0] + "\n" + JoinLines(ls[1..])
  }

  /** Every line after the first, re-joined. */
  function AfterFirstLine(s: string): string
  {
    var ls := Lines(s);
    if ls == [] then [] else JoinLines(ls[1..])
  }

  /** Text that `lines()` yields back as one whole line. */
  predicate SingleLine(s: string)
  {
    '\n' !in s && (s == [] || s[|s|-1] != '\r')
  }

  /** Joining single lines and splitting the result gives the lines back. */
  lemma {:induction false} LinesOfJoinLines(ls: seq<string>)
    requires forall i :: 0 <= i < |ls| ==> SingleLine(ls[i])
    ensures Lines(JoinLines(ls)) == ls
  {
    if ls != [] {
      assert SingleLine(ls[0]);
      LinesOfJoinLines(ls[1..]);
      LinesOfPrefixed(ls[0], JoinLines(ls[1..]));
    }
  }

  /** A text that `lines()` followed by re-joining leaves unchanged: no
      carriage return and, unless empty, a final newline. */
  predicate PlainText(s: string)
  {
    && (forall i :: 0 <= i < |s| ==> s[i] != '\r')
    && (s == [] || s[|s|-1] == '\n')
  }

  /** A first line free of "\n" and not ending in "\r" comes back exactly. */
  lemma LinesOfPrefixed(a: string, b: string)
    requires '\n' !in a
    requires a == [] || a[|a|-1] != '\r'
    ensures Lines(a + "\n" + b) == [a] + Lines(b)
  {
    var s := a + "\n" + b;
    assert s[|a|] == '\n';
    assert forall j :: 0 <= j < |a| ==> s[j] == a[j];
    assert FirstIndex(s, '\n') == |a|;
    assert s[..|a|] == a;
    assert s[|a|+1..] == b;
  }

  /** Splitting plain text into lines and re-joining them is the identity. */
  lemma {:induction false} JoinLinesOfLines(s: string)
    requires PlainText(s)
    ensures JoinLines(Lines(s)) == s
    decreases |s|
  {
    if s != [] {
      assert s[|s|-1] == '\n';
      var i := FirstIndex(s, '\n');
      assert i < |s|;
      var line, rest := s[..i], s[i+1..];
      DropCRPlain(s, i);
      PlainSuffix(s, i + 1);
      JoinLinesOfLines(rest);
      var ls := Lines(s);
      assert ls == [line] + Lines(rest);
      assert ls[0] == line && ls[1..] == Lines(rest);
      assert JoinLines(ls) == line + "\n" + rest;
      SplitAt(s, i);
    }
  }

  lemma SplitAt(s: string, i: nat)
    requires i < |s| && s[i] == '\n'
    ensures s == s[..i] + "\n" + s[i+1..]
  {
    assert s[i..] == [s[i]] + s[i+1..];
    assert s == s[..i] + s[i..];
  }

  lemma DropCRPlain(s: string, i: nat)
    requires i < |s|
    requires forall j :: 0 <= j < |s| ==> s[j] != '\r'
    ensures DropCR(s[..i]) == s[..i]
  {
    if i > 0 {
      assert s[..i][i-1] == s[i-1];
    }
  }

  lemma PlainSuffix(s: string, k: nat)
    requires PlainText(s)
    requires k <= |s|
    ensures PlainText(s[k..])
  {
    var t := s[k..];
    forall j | 0 <= j < |t|
      ensures t[j] != '\r'
    {
      assert t[j] == s[k + j];
    }
  }
}
